=== FILE: README.md ===
# Student records: registration batches, audits and admin upserts

A Dafny model of the request handlers of a student-records web service (Express on
PostgreSQL). The handlers covered here:

- `registerUnits`, which registers a batch of units for a student. It groups the batch by
  semester and visits the groups in JavaScript `for...in` order. It refuses a group that
  would take the student past 4 units in that semester. It inserts the other groups row
  by row, refuses a unit already registered for that semester, and returns at the first
  refusal without undoing earlier inserts.
- The read handlers:
  - `getAudit`: the pass/fail audit of grades.
  - `getFullAudit`: the program audit with prerequisite and registration flags.
  - `getAvailableUnits`, `getStudentDetails` and `getInvoice`.
- The admin handlers:
  - `updateInvoice` and `updateGrade`: keyed update-or-insert.
  - `createStudent`: create-if-absent with a hashed password.
  - `createProgram` and `createUnit`: unconditional inserts.

The database is an immutable value (`Store.Store`). Each table is a sequence of rows in
insertion order:

- An INSERT is an append.
- An `UPDATE ... WHERE` rewrites the matching rows in place.
- A `SELECT ... WHERE` is a filter.
- A `COUNT(*)` is the length of one.

Columns the handlers may read as NULL are `Option`s. NULLs written from absent request
fields are not modelled (see "## Left out"). Every handler is a pure function from the store and the
request to the new store and the reply. `Reply` is `Ok(value)`, or `Err(status, message)`
for the 400 and 404 answers.

Files:

- `store.dfy`: rows, the store, the per-semester count and the two invariants of
  `registered_units`.
- `decimal.dfy`: decimal numerals. The capacity message prints a count, and JavaScript
  object key order depends on which keys are canonical numerals.
- `js_object.dfy`: objects as property lists in creation order, and the `for...in`
  enumeration order. Keys that are array indices (canonical numerals up to 2^32 - 2) come
  first, in ascending numeric order; the other keys follow in creation order.
- `registration.dfy`: `registerUnits` in module `Registration`, and its properties in
  module `RegistrationProperties`.
- `registration_examples.dfy`: three worked requests on small stores.
- `audit.dfy`: `getInvoice`, `getStudentDetails`, `getAudit`, `getAvailableUnits`.
- `full_audit.dfy`: `getFullAudit`, including the LEFT JOIN and the ORDER BY.
- `upsert.dfy`: the update-or-insert pattern shared by `updateInvoice` and `updateGrade`.
- `admin.dfy`: the admin handlers.

Each requested unit's semester is a string. The model uses that one string both as the
object key (for grouping, counting and the messages) and as the column value (for the
duplicate check and the INSERT). The password hash is a parameter of `Admin.CreateStudent`.
The id of a new unit is the store field `nextUnitId`, which stands for the database's
serial counter.

## Model

| member | source | states |
|---|---|---|
| Decimal.ParseDecimalOfDecimalString | controllers/studentController.js:213 | The count printed in the capacity message reads back as that count. |
| Decimal.DecimalStringOfParseDecimal | controllers/studentController.js:200 | Every canonical numeral is the rendering of its own value, so it is the one spelling of an array-index key. |
| JsObject.EnumerationOrder | controllers/studentController.js:200 | The `for...in` order of an object is a reordering of its properties with distinct keys. Array-index keys come before all others, in strictly ascending numeric order. The other keys keep their creation order. |
| JsObject.EnumerationOrderWithoutIndices | controllers/studentController.js:200 | With no array-index key, `for...in` visits keys in creation order. |
| JsObject.FlattenPermutation | controllers/studentController.js:200-201 | Reordering the semester groups reorders the units they hold, as a multiset. |
| Store.SemesterCount | controllers/studentController.js:203-209 | The per-student, per-semester count is at most the table size. It is positive exactly when such a row exists. |
| Registration.GroupBySemester | controllers/studentController.js:192-198 | The grouping loop gives each semester one property with distinct keys. Each property holds exactly that semester's units in request order, and is never empty. Every unit lands in some group, and the groups together hold the request as a multiset. |
| Registration.GroupOrderIsFirstOccurrence | controllers/studentController.js:192-198 | Groups are created in the order their semesters first occur in the request. |
| Registration.Groups | controllers/studentController.js:192-200 | The groups in visiting order are still a grouping of the request. Array-index semesters come first, ascending. The other semesters keep their creation order. |
| Registration.GroupsSize | controllers/studentController.js:193-200 | The visited groups hold as many units as the request. An empty request yields no group. |
| Registration.InsertGroup | controllers/studentController.js:217-234 | Stated as `InsertOutcome`. The inner loop inserts the rows of a prefix of the group and nothing else. Each inserted unit had no (student, unit code, semester) row when it was checked, counting rows inserted earlier in the batch (`CheckedFresh`). It stops exactly at the first unit whose row already exists, which may be a row inserted earlier in the same batch, and names that unit and the group's semester. |
| Registration.Message | controllers/studentController.js:211-227 | The refusal text can be taken apart again. For a capacity refusal, the semester and the printed count sit between the fixed pieces of the text. For a duplicate, the unit code and the semester do. |
| Registration.MessageCountReadsBack | controllers/studentController.js:208-213 | The count printed in a capacity refusal parses back to the number of existing rows. |
| Registration.RunGroups | controllers/studentController.js:200-236 | The outer loop adds the rows of a prefix of the units in visiting order. If it completes, it added all of them. A refusal names a semester that was visited. |
| Registration.RegisterUnits | controllers/studentController.js:189-238 | Only `registered_units` changes, and existing rows are kept. Every added row carries the request's student id. Success means status 200, the success message, and exactly one row per requested unit. Failure means status 400. An empty request succeeds and changes nothing. |
| RegistrationProperties.RunGroupsSequential | controllers/studentController.js:211-228 | Visiting `a + b` is visiting `a`, then `b` only if `a` was not refused. Nothing after the first refusal is examined or inserted. |
| RegistrationProperties.CapacityRejection | controllers/studentController.js:203-215 | A group is refused for capacity exactly when the count before any of its inserts plus the group size exceeds 4. The refusal names the group's semester and that count, and inserts no row of the group. |
| RegistrationProperties.InsertGroupSucceeds | controllers/studentController.js:217-234 | A group is inserted in full exactly when none of its units is already registered for its semester and no unit appears twice in it. |
| RegistrationProperties.RunGroupsAdmissible | controllers/studentController.js:200-236 | A run of groups with distinct semesters completes exactly when every group is admissible against the store as it stood before the request. |
| RegistrationProperties.RegisterUnitsSucceeds | controllers/studentController.js:189-238 | A request succeeds exactly when three conditions hold. For every requested semester, the existing count plus the number of units requested for it is at most 4. No requested unit is already registered for its semester. No (unit, semester) pair is requested twice. |
| RegistrationProperties.VisitingOrderIsPermutation | controllers/studentController.js:192-201 | The visiting order of the units is a reordering of the request. |
| RegistrationProperties.RegisterUnitsRows | controllers/studentController.js:230-238 | The rows left behind, on success or failure, are those of a prefix of the units in visiting order. On success, they are the rows of all of them. |
| RegistrationProperties.RegisterUnitsKeepsCapacity | controllers/studentController.js:203-215 | If no student holds more than 4 units in a semester before a request, none does after it, whatever the outcome. |
| RegistrationProperties.RegisterUnitsKeepsNoDuplicates | controllers/studentController.js:217-234 | No request, successful or refused, creates a second row for the same student, unit and semester. |
| RegistrationProperties.SingleSemesterGroups | controllers/studentController.js:192-200 | A request for one semester is visited as a single group holding the whole request in order. |
| RegistrationProperties.TwoIndexSemesterGroups | controllers/studentController.js:200 | Two semesters named by array indices are visited in numeric order, whatever order the request lists them in. |
| RegistrationExamples.CapacityExample | controllers/studentController.js:203-215 | Three Spring rows plus two requested Spring units: status 400 naming Spring and the count 3, and the store is unchanged. |
| RegistrationExamples.DuplicateInBatchExample | controllers/studentController.js:217-234 | The same unit twice in one request: the first copy is inserted, the second is refused as a duplicate, and the inserted row stays. |
| RegistrationExamples.NumericSemesterExample | controllers/studentController.js:200-215 | A request listing semester "2" before "1" visits "1" first. The unit for "1" is inserted, then "2" is refused for capacity, and the inserted row stays. |
| Audit.GetInvoice | controllers/studentController.js:16-23 | The answer is an invoice row of the student (the first in the model's table order), or nothing exactly when the student has none. |
| Audit.GetStudentDetails | controllers/studentController.js:165-175 | 404 "Student not found" exactly when no student row has the id. Otherwise the answer holds the selected columns of a row with that id. |
| Audit.Status | controllers/studentController.js:63-67 | The status is "Passed" exactly when the grade is present and one of A, B, C, D, and "Failed" otherwise. A missing grade fails. |
| Audit.GetAudit | controllers/studentController.js:59-73 | In every audit row, the status is "Passed" exactly when the row's grade is A, B, C or D. |
| Audit.GetAuditMembership | controllers/studentController.js:62-70 | A row is in the grade audit exactly when some grade row of the student joins a unit with the same id. The row then carries that unit's title, that grade and its status. |
| Audit.GetAvailableUnits | controllers/studentController.js:252-266 | The handler lists a (code, title) pair exactly when some unit with that code and title matches all three query keys. It gives one entry per matching unit. A missing key gives an empty list. |
| Audit.AvailableUnitsMembership | controllers/studentController.js:252-259 | A (code, title) pair is listed exactly when all three query keys are present and some unit with that code and title matches the program, the year and the semester. |
| Audit.AvailableUnitsWithoutKey | controllers/studentController.js:253-261 | A request missing the program title, the year or the semester is sent with NULL for it, and gets an empty list, not an error. |
| Audit.AvailableUnitsProjection | controllers/studentController.js:255-259 | The listing is the matching units, one entry each, cut down to code and title (in the model's table order). |
| FullAudit.PrerequisiteCount | controllers/studentController.js:103-105 | The number of prerequisites rows for a unit code is positive exactly when such a row exists. |
| FullAudit.Sort | controllers/studentController.js:107 | The ORDER BY result is a reordering of the joined rows. It is sorted by year offered, then semester offered, ascending with NULLs last. |
| FullAudit.RegisteredCodes | controllers/studentController.js:111-116 | A code is in the registered set exactly when the student has a `registered_units` row with it, in any semester. |
| FullAudit.GetFullAudit | controllers/studentController.js:86-109 | 404 "Student not found" exactly when no student row has the id. Otherwise the entries are ordered by year offered, then semester offered, with NULLs last. |
| FullAudit.PrerequisiteCountSplit | controllers/studentController.js:103-105 | The prerequisites rows naming a unit split into those with a unit_id and those with a NULL one. |
| FullAudit.FullAuditMultiplicity | controllers/studentController.js:101-125 | Each entry of a known student's audit occurs as many times as the LEFT JOIN yields it. A program unit named by no prerequisites row gives one entry with `isPrerequisite` false. Otherwise it gives one entry per prerequisites row naming it, with `isPrerequisite` true exactly when that row's unit_id is not NULL. `isRegistered` holds exactly when the student registered the unit in any semester. |
| FullAudit.FullAuditMembership | controllers/studentController.js:99-125 | An entry is in a known student's audit exactly when some unit of the student's program yields it, with the flags as above. |
| FullAudit.FullAuditLength | controllers/studentController.js:101-109 | The audit has one entry per (program unit, prerequisites row naming it) pair, plus one for each program unit named by none. |
| FullAudit.FullAuditWithoutProgram | controllers/studentController.js:99-109 | A student row with no program title gets an empty unit list, not a 404. |
| KeyedUpsert.Upsert | controllers/adminController.js:50-73 | When rows with the key exist, every one of them is replaced by the new row, the others stay in place and the count is unchanged. Otherwise the new row is appended after the unchanged old rows. Either way a row with the key exists afterwards. |
| KeyedUpsert.UpsertStores | controllers/adminController.js:50-73 | After an upsert the new row is present, and every row with its key equals it. |
| KeyedUpsert.UpsertKeepsOthers | controllers/adminController.js:57-73 | An upsert leaves the rows with other keys unchanged, in content and order. |
| KeyedUpsert.UpsertIdempotent | controllers/adminController.js:50-73 | Applying the same upsert twice is applying it once. |
| KeyedUpsert.UpsertKeepsUnique | controllers/adminController.js:50-73 | If keys are unique before an upsert, they are unique after it. |
| Admin.UpdateInvoice | controllers/adminController.js:45-74 | Only the invoice table changes. If the student had invoice rows, every one of them gets the new fees, paid amount and holds, the row count is unchanged, and the reply is "updated". Otherwise exactly one row is appended and the reply is "created". |
| Admin.UpdateInvoiceThenGet | controllers/adminController.js:45-74 | After `updateInvoice`, `getInvoice` answers with exactly the values written. |
| Admin.UpdateInvoiceIdempotent | controllers/adminController.js:45-74 | The same `updateInvoice` twice leaves the store as once, and the second reply says "updated". |
| Admin.UpdateInvoiceKeepsOthers | controllers/adminController.js:57-62 | Invoice rows of other students are untouched. |
| Admin.UpdateInvoiceKeepsUnique | controllers/adminController.js:50-73 | One invoice row per student stays one row per student. |
| Admin.UpdateGrade | controllers/adminController.js:101-130 | Only the grades table changes. If rows for (student, unit) exist, each gets the new grade, semester and year, the row count is unchanged, and the reply is "updated". Otherwise exactly one row is appended and the reply is "created". |
| Admin.UpdateGradeStores | controllers/adminController.js:106-129 | Afterwards a grade row for (student, unit) exists, and every such row carries the given grade, semester and year. |
| Admin.UpdateGradeIdempotent | controllers/adminController.js:101-130 | The same `updateGrade` twice leaves the store as once, and the second reply says "updated". |
| Admin.UpdateGradeKeepsOthers | controllers/adminController.js:113-118 | Grade rows with a different (student, unit) are untouched. |
| Admin.UpdateGradeKeepsUnique | controllers/adminController.js:106-129 | One grade row per (student, unit) stays one. |
| Admin.CreateStudent | controllers/adminController.js:5-35 | The request fails exactly when the id already exists. The failure is 400 "Student already exists" with the store unchanged. Otherwise only the students table changes: exactly one row is appended. It holds the request's columns and the hash of the password, not the password, and has no program title or program year. |
| Admin.CreateStudentKeepsUnique | controllers/adminController.js:19-33 | Student ids stay unique. |
| Admin.CreateStudentThenDetails | controllers/adminController.js:28-33 | A created student is found by `getStudentDetails`, with no program title and no program year. |
| Admin.CreateStudentThenFullAudit | controllers/adminController.js:28-33 | A created student has no program title, so the full audit lists no units. |
| Admin.CreateProgram | controllers/adminController.js:138-148 | Only the programs table changes: exactly one row with the given title, description and year is appended, with no existence check. |
| Admin.CreateProgramTwice | controllers/adminController.js:142-146 | Creating the same program twice stores two equal rows. |
| Admin.CreateUnit | controllers/adminController.js:156-166 | Only the units table and the id counter change. Exactly one row is appended, with no existence check. It takes the counter's id and the request's columns, and has no program title and no year offered. If every existing id is below the counter, the new id differs from all of them and the counter stays ahead of every id. |
| Admin.CreateUnitNotAvailable | controllers/adminController.js:160-164 | A unit made by `createUnit` has no program title and no year offered, so it never appears in the available-units listing. |
| Admin.CreateUnitNotAudited | controllers/adminController.js:160-164 | Nor does it change any student's full audit. |

## Left out

- Every 500 path. The store, the hashing library and the JSON layer are assumed never to fail.
- Concurrency. Each handler is one uninterrupted step. Two concurrent registrations can both pass the capacity check; that race is not modelled.
- `getUnitHistory`, `getGrades` and the login handler in `controllers/authController.js`. They are not part of the modelled core.
- The routing, middleware, token checks and database pool. They are wiring and I/O.
- Password hashing. `hash` is a parameter of `Admin.CreateStudent`; the salt rounds and the randomness of the salt are not modelled.
- Unit ids. The id column of a new unit is assigned by the database, modelled as the store's `nextUnitId`.
- Query-string parsing in `getAvailableUnits`. A present year and semester are taken as integers. A value the database cannot cast to one is an error path, left out with the 500s.
- Registration.RegisterUnits: does not model a requested unit whose `semester` is missing or null. The handler groups, counts and reports such a unit under the text "undefined" or "null", but checks and inserts it with a SQL NULL semester, which no duplicate check matches. The model has one string for both uses. Missing or null student ids, unit codes and program years are left out likewise. A NULL student id would match no row in the COUNT or the duplicate check, so only the group size would be checked; `RegistrationProperties.RegisterUnitsKeepsCapacity` and `RegistrationProperties.RegisterUnitsKeepsNoDuplicates` hold for string student ids only.
- Admin.CreateStudent, Admin.CreateUnit: "no program title", "no program year" and "no year offered" rest on the INSERT column lists and assume those columns have no default value in the schema, which is not part of this model.
- Admin.UpdateInvoice, Admin.UpdateGrade, Admin.CreateStudent, Admin.CreateProgram, Admin.CreateUnit: absent request-body fields are sent to the database as NULL, and this is not modelled. Every request field is a present value. With a partial body, `updateInvoice` and `updateGrade` would write NULL fees, holds, semester or year, and `createProgram` and `createUnit` would insert NULL columns. In `createStudent`, the existence check `student_id = NULL` matches no row, so a NULL id is never refused as existing and its INSERT runs, unless the schema rejects it (a 500).
- Money. Unit fees and invoice amounts are integers; amounts with cents are not represented.
- Semester keys that name members of `Object.prototype`, such as "constructor". There, `semesters[key]` is truthy before the first push, and the push throws (a 500). The model treats every semester string as a fresh own key.
- `parseInt` of the count. The count is taken as the number it encodes.
- Ties in the full audit ORDER BY. The database leaves their order open; `FullAudit.Sort` keeps join order. Its contract states only sortedness and permutation.
- Audit.GetInvoice, Audit.AvailableUnitsProjection, Audit.GetStudentDetails, FullAudit.GetFullAudit: the model fixes table (insertion) order where SQL leaves it open. The student lookups in `getStudentDetails` and `getFullAudit` have no ORDER BY either, so with duplicated student ids `rows[0]` may be any of them; the model takes the first (ids stay unique under `Admin.CreateStudentKeepsUnique`). Neither query has an ORDER BY, so `result.rows[0]` is some invoice row of the student, not necessarily the first inserted, and the available units may come in any order. An UPDATE writes a new tuple, which the model's in-place rewrite also does not reflect. Which rows are returned is stated order-free by the membership clauses.
- The order of `getAudit` rows. SQL leaves it open; the model lists them grade row by grade row, and its lemmas state membership only.
- Audit.GetAudit: states the status of each row. Which rows are listed is stated separately by `Audit.GetAuditMembership`.

=== FILE: admin.dfy ===
/** The admin handlers: keyed upserts of invoices and grades, create-if-absent for
    students, and unconditional creation of programs and units. */
module Admin {
  import opened Store
  import opened KeyedUpsert
  import opened Audit
  import opened FullAudit

  // ----- updateInvoice -----

  function InvoiceKey(v: Invoice): string {
    v.student
  }

  const InvoiceUpdated: string := "Invoice updated successfully"
  const InvoiceCreated: string := "Invoice created successfully"

  /** `updateInvoice`: overwrite the student's invoice rows, or create one. */
  function UpdateInvoice(st: Store, sid: string, totalFees: int, amountPaid: int, holds: string)
    : (out: (Store, Reply<string>))
    ensures out.0 == st.(invoices := out.0.invoices)
    ensures out.1 == Ok(if HasKey(st.invoices, InvoiceKey, sid) then InvoiceUpdated else InvoiceCreated)
    ensures HasKey(st.invoices, InvoiceKey, sid) ==>
              |out.0.invoices| == |st.invoices|
              && forall i :: 0 <= i < |st.invoices| ==>
                   out.0.invoices[i] == (if st.invoices[i].student == sid
                                         then Invoice(sid, totalFees, amountPaid, holds) else st.invoices[i])
    ensures !HasKey(st.invoices, InvoiceKey, sid) ==>
              out.0.invoices == st.invoices + [Invoice(sid, totalFees, amountPaid, holds)]
  {
    var row := Invoice(sid, totalFees, amountPaid, holds);
    var existed := HasKey(st.invoices, InvoiceKey, sid);
    (st.(invoices := Upsert(st.invoices, InvoiceKey, row)), Ok(if existed then InvoiceUpdated else InvoiceCreated))
  }

  /** After `updateInvoice`, `getInvoice` answers with exactly the values just written. */
  lemma UpdateInvoiceThenGet(st: Store, sid: string, totalFees: int, amountPaid: int, holds: string)
    ensures GetInvoice(UpdateInvoice(st, sid, totalFees, amountPaid, holds).0, sid)
            == Some(Invoice(sid, totalFees, amountPaid, holds))
  {
    var row := Invoice(sid, totalFees, amountPaid, holds);
    UpsertStores(st.invoices, InvoiceKey, row);
  }

  /** The same `updateInvoice` twice leaves the store as once, and the second answer
      says "updated". */
  lemma UpdateInvoiceIdempotent(st: Store, sid: string, totalFees: int, amountPaid: int, holds: string)
    ensures var once := UpdateInvoice(st, sid, totalFees, amountPaid, holds);
            var twice := UpdateInvoice(once.0, sid, totalFees, amountPaid, holds);
            twice.0 == once.0 && twice.1 == Ok(InvoiceUpdated)
  {
    var row := Invoice(sid, totalFees, amountPaid, holds);
    UpsertIdempotent(st.invoices, InvoiceKey, row);
    UpsertStores(st.invoices, InvoiceKey, row);
    var r := Upsert(st.invoices, InvoiceKey, row);
    var i :| 0 <= i < |r| && r[i] == row;
    assert HasKey(r, InvoiceKey, sid);
  }

  /** Invoice rows of other students are untouched, in content and in order. */
  lemma UpdateInvoiceKeepsOthers(st: Store, sid: string, totalFees: int, amountPaid: int, holds: string)
    ensures Others(UpdateInvoice(st, sid, totalFees, amountPaid, holds).0.invoices, InvoiceKey, sid)
            == Others(st.invoices, InvoiceKey, sid)
  {
    UpsertKeepsOthers(st.invoices, InvoiceKey, Invoice(sid, totalFees, amountPaid, holds));
  }

  /** One invoice row per student stays one invoice row per student. */
  lemma UpdateInvoiceKeepsUnique(st: Store, sid: string, totalFees: int, amountPaid: int, holds: string)
    requires UniqueKeys(st.invoices, InvoiceKey)
    ensures UniqueKeys(UpdateInvoice(st, sid, totalFees, amountPaid, holds).0.invoices, InvoiceKey)
  {
    UpsertKeepsUnique(st.invoices, InvoiceKey, Invoice(sid, totalFees, amountPaid, holds));
  }

  // ----- updateGrade -----

  function GradeKey(g: Grade): (string, nat) {
    (g.student, g.unitId)
  }

  const GradeUpdated: string := "Grade updated successfully"
  const GradeCreated: string := "Grade created successfully"

  /** `updateGrade`: overwrite grade, semester and year of the rows for (student, unit), or
      create one. */
  function UpdateGrade(st: Store, sid: string, unitId: nat, grade: Option<string>, semester: string, year: int)
    : (out: (Store, Reply<string>))
    ensures out.0 == st.(grades := out.0.grades)
    ensures out.1 == Ok(if HasKey(st.grades, GradeKey, (sid, unitId)) then GradeUpdated else GradeCreated)
    ensures HasKey(st.grades, GradeKey, (sid, unitId)) ==>
              |out.0.grades| == |st.grades|
              && forall i :: 0 <= i < |st.grades| ==>
                   out.0.grades[i] == (if st.grades[i].student == sid && st.grades[i].unitId == unitId
                                       then Grade(sid, unitId, semester, year, grade) else st.grades[i])
    ensures !HasKey(st.grades, GradeKey, (sid, unitId)) ==>
              out.0.grades == st.grades + [Grade(sid, unitId, semester, year, grade)]
  {
    var row := Grade(sid, unitId, semester, year, grade);
    var existed := HasKey(st.grades, GradeKey, (sid, unitId));
    (st.(grades := Upsert(st.grades, GradeKey, row)), Ok(if existed then GradeUpdated else GradeCreated))
  }

  /** Afterwards a grade row for (student, unit) exists and every such row carries the
      given grade, semester and year. */
  lemma UpdateGradeStores(st: Store, sid: string, unitId: nat, grade: Option<string>, semester: string, year: int)
    ensures var gs := UpdateGrade(st, sid, unitId, grade, semester, year).0.grades;
            && Grade(sid, unitId, semester, year, grade) in gs
            && forall g :: g in gs && g.student == sid && g.unitId == unitId ==>
                 g.grade == grade && g.semester == semester && g.year == year
  {
    UpsertStores(st.grades, GradeKey, Grade(sid, unitId, semester, year, grade));
  }

  lemma UpdateGradeIdempotent(st: Store, sid: string, unitId: nat, grade: Option<string>, semester: string, year: int)
    ensures var once := UpdateGrade(st, sid, unitId, grade, semester, year);
            var twice := UpdateGrade(once.0, sid, unitId, grade, semester, year);
            twice.0 == once.0 && twice.1 == Ok(GradeUpdated)
  {
    var row := Grade(sid, unitId, semester, year, grade);
    UpsertIdempotent(st.grades, GradeKey, row);
    UpsertStores(st.grades, GradeKey, row);
    var r := Upsert(st.grades, GradeKey, row);
    var i :| 0 <= i < |r| && r[i] == row;
    assert HasKey(r, GradeKey, (sid, unitId));
  }

  /** Grade rows with a different (student, unit) are untouched, in content and in order. */
  lemma UpdateGradeKeepsOthers(st: Store, sid: string, unitId: nat, grade: Option<string>, semester: string, year: int)
    ensures Others(UpdateGrade(st, sid, unitId, grade, semester, year).0.grades, GradeKey, (sid, unitId))
            == Others(st.grades, GradeKey, (sid, unitId))
  {
    UpsertKeepsOthers(st.grades, GradeKey, Grade(sid, unitId, semester, year, grade));
  }

  lemma UpdateGradeKeepsUnique(st: Store, sid: string, unitId: nat, grade: Option<string>, semester: string, year: int)
    requires UniqueKeys(st.grades, GradeKey)
    ensures UniqueKeys(UpdateGrade(st, sid, unitId, grade, semester, year).0.grades, GradeKey)
  {
    UpsertKeepsUnique(st.grades, GradeKey, Grade(sid, unitId, semester, year, grade));
  }

  // ----- createStudent -----

  /** The request body of `createStudent`. */
  datatype NewStudent = NewStudent(
    studentId: string,
    password: string,
    firstName: string,
    lastName: string,
    email: string,
    address: string,
    phone: string,
    programId: string)

  const StudentExists: string := "Student already exists"
  const StudentCreated: string := "Student created successfully"

  /** The row the INSERT writes; program title and year are not among its columns. */
  function StudentRow(req: NewStudent, hash: string -> string): Student {
    Student(req.studentId, hash(req.password), req.firstName, req.lastName, req.email,
            req.address, req.phone, req.programId, None, None)
  }

  /** `createStudent`; `hash` stands for the password hashing library. */
  function CreateStudent(st: Store, req: NewStudent, hash: string -> string): (out: (Store, Reply<string>))
    ensures out.1.Err? <==> exists s :: s in st.students && s.studentId == req.studentId
    ensures out.1.Err? ==> out == (st, Err(400, StudentExists))
    ensures out.1.Ok? ==>
              && out.1.value == StudentCreated
              && out.0 == st.(students := out.0.students)
              && |out.0.students| == |st.students| + 1
              && st.students <= out.0.students
              && var s := out.0.students[|st.students|];
                 && s.studentId == req.studentId
                 && s.passwordHash == hash(req.password)
                 && s.firstName == req.firstName && s.lastName == req.lastName
                 && s.email == req.email && s.address == req.address && s.phone == req.phone
                 && s.programId == req.programId
                 && s.programTitle.None? && s.programYear.None?
  {
    if exists s :: s in st.students && s.studentId == req.studentId then (st, Err(400, StudentExists))
    else (st.(students := st.students + [StudentRow(req, hash)]), Ok(StudentCreated))
  }

  predicate UniqueStudentIds(students: seq<Student>) {
    forall i, j :: 0 <= i < j < |students| ==> students[i].studentId != students[j].studentId
  }

  lemma CreateStudentKeepsUnique(st: Store, req: NewStudent, hash: string -> string)
    requires UniqueStudentIds(st.students)
    ensures UniqueStudentIds(CreateStudent(st, req, hash).0.students)
  {
    var out := CreateStudent(st, req, hash);
    if forall s :: s in st.students ==> s.studentId != req.studentId {
      forall i, j | 0 <= i < j < |out.0.students|
        ensures out.0.students[i].studentId != out.0.students[j].studentId
      {
        if j == |st.students| {
          assert st.students[i] in st.students;
        }
      }
    }
  }

  /** A created student is found by `getStudentDetails`, with no program title or year. */
  lemma CreateStudentThenDetails(st: Store, req: NewStudent, hash: string -> string)
    requires forall s :: s in st.students ==> s.studentId != req.studentId
    ensures GetStudentDetails(CreateStudent(st, req, hash).0, req.studentId)
            == Ok(StudentDetails(req.studentId, req.firstName, req.lastName, None, None))
  {
    var students := st.students + [StudentRow(req, hash)];
    FirstStudentAfterAppend(st.students, StudentRow(req, hash));
  }

  lemma {:induction false} FirstStudentAfterAppend(students: seq<Student>, s: Student)
    requires forall t :: t in students ==> t.studentId != s.studentId
    ensures FirstStudent(students + [s], s.studentId) == Some(s)
    decreases |students|
  {
    if |students| == 0 {
      assert students + [s] == [s];
    } else {
      assert (students + [s])[1..] == students[1..] + [s];
      assert students[0] in students;
      assert forall t :: t in students[1..] ==> t in students;
      FirstStudentAfterAppend(students[1..], s);
    }
  }

  /** A created student has no program title, so the full audit lists no units. */
  lemma CreateStudentThenFullAudit(st: Store, req: NewStudent, hash: string -> string)
    requires forall s :: s in st.students ==> s.studentId != req.studentId
    ensures GetFullAudit(CreateStudent(st, req, hash).0, req.studentId) == Ok([])
  {
    var after := CreateStudent(st, req, hash).0;
    FirstStudentAfterAppend(st.students, StudentRow(req, hash));
    assert StudentRow(req, hash) in after.students;
    FullAuditWithoutProgram(after, req.studentId);
  }

  // ----- createProgram and createUnit -----

  const ProgramCreated: string := "Program created successfully"
  const UnitCreated: string := "Unit created successfully"

  /** `createProgram`: an INSERT with no existence check. */
  function CreateProgram(st: Store, title: string, description: string, programYear: int): (out: (Store, Reply<string>))
    ensures out.0 == st.(programs := out.0.programs)
    ensures |out.0.programs| == |st.programs| + 1 && st.programs <= out.0.programs
    ensures out.0.programs[|st.programs|] == Program(title, description, programYear)
    ensures out.1 == Ok(ProgramCreated)
  {
    (st.(programs := st.programs + [Program(title, description, programYear)]), Ok(ProgramCreated))
  }

  /** The request body of `createUnit`. */
  datatype NewUnit = NewUnit(
    title: string,
    unitCode: string,
    description: string,
    semesterOffered: Option<int>,
    unitFee: int,
    programId: string)

  /** The row the INSERT writes: the id is the store's next one, and program title and
      year offered are not among its columns. */
  function UnitRow(st: Store, req: NewUnit): Unit {
    Unit(st.nextUnitId, req.unitCode, req.title, req.description, None, None,
         req.semesterOffered, req.unitFee, req.programId)
  }

  /** `createUnit`: an INSERT with no existence check. */
  function CreateUnit(st: Store, req: NewUnit): (out: (Store, Reply<string>))
    ensures out.0 == st.(units := out.0.units, nextUnitId := out.0.nextUnitId)
    ensures |out.0.units| == |st.units| + 1 && st.units <= out.0.units
    ensures var u := out.0.units[|st.units|];
            && u.id == st.nextUnitId && out.0.nextUnitId > u.id
            && u.unitCode == req.unitCode && u.title == req.title
            && u.description == req.description && u.unitFee == req.unitFee
            && u.semesterOffered == req.semesterOffered && u.programId == req.programId
            && u.programTitle.None? && u.yearOffered.None?
    ensures IdsBelowCounter(st) ==>
              && IdsBelowCounter(out.0)
              && forall v :: v in st.units ==> v.id != out.0.units[|st.units|].id
    ensures out.1 == Ok(UnitCreated)
  {
    (st.(units := st.units + [UnitRow(st, req)], nextUnitId := st.nextUnitId + 1), Ok(UnitCreated))
  }

  /** Creating the same program twice stores it twice. */
  lemma CreateProgramTwice(st: Store, title: string, description: string, programYear: int)
    ensures var twice := CreateProgram(CreateProgram(st, title, description, programYear).0,
                                       title, description, programYear).0;
            var n := |st.programs|;
            |twice.programs| == n + 2
            && twice.programs[n] == twice.programs[n + 1] == Program(title, description, programYear)
  {
  }

  /** A unit made by `createUnit` has no program title and no year offered, so it never
      shows in the available-units listing. */
  lemma CreateUnitNotAvailable(st: Store, req: NewUnit, programTitle: Option<string>, year: Option<int>, semester: Option<int>)
    ensures GetAvailableUnits(CreateUnit(st, req).0, programTitle, year, semester)
            == GetAvailableUnits(st, programTitle, year, semester)
  {
    AvailableUnitsAppend(st.units, UnitRow(st, req), programTitle, year, semester);
  }

  lemma {:induction false} AvailableUnitsAppend(units: seq<Unit>, u: Unit, programTitle: Option<string>, year: Option<int>, semester: Option<int>)
    requires !Offered(u, programTitle, year, semester)
    ensures AvailableUnits(units + [u], programTitle, year, semester) == AvailableUnits(units, programTitle, year, semester)
    decreases |units|
  {
    if |units| == 0 {
      assert units + [u] == [u];
    } else {
      assert (units + [u])[1..] == units[1..] + [u];
      AvailableUnitsAppend(units[1..], u, programTitle, year, semester);
    }
  }

  /** Nor does it show in any student's full audit. */
  lemma CreateUnitNotAudited(st: Store, req: NewUnit, sid: string)
    ensures GetFullAudit(CreateUnit(st, req).0, sid) == GetFullAudit(st, sid)
  {
    var after := CreateUnit(st, req).0;
    var u := UnitRow(st, req);
    forall pt: Option<string> ensures JoinProgram(after.units, st.prerequisites, pt) == JoinProgram(st.units, st.prerequisites, pt) {
      JoinProgramAppend(st.units, u, st.prerequisites, pt);
    }
  }

  lemma {:induction false} JoinProgramAppend(units: seq<Unit>, u: Unit, prereqs: seq<Prerequisite>, programTitle: Option<string>)
    requires !InProgram(u, programTitle)
    ensures JoinProgram(units + [u], prereqs, programTitle) == JoinProgram(units, prereqs, programTitle)
    decreases |units|
  {
    if |units| == 0 {
      assert units + [u] == [u];
    } else {
      assert (units + [u])[1..] == units[1..] + [u];
      JoinProgramAppend(units[1..], u, prereqs, programTitle);
    }
  }
}

=== FILE: audit.dfy ===
/** The read-only student handlers: the grade audit, the available-units query, the
    details lookup and the invoice lookup. The full program audit is module `FullAudit`. */
module Audit {
  import opened Store

  // ----- Lookups by student -----

  /** Position of the first student row with id `sid`; `|students|` when there is none. */
  function StudentIndex(students: seq<Student>, sid: string): (i: nat)
    ensures i <= |students|
    ensures i < |students| ==> students[i].studentId == sid
    ensures forall j :: 0 <= j < i ==> students[j].studentId != sid
    decreases |students|
  {
    if |students| == 0 || students[0].studentId == sid then 0
    else 1 + StudentIndex(students[1..], sid)
  }

  /** The first row of `SELECT ... FROM students WHERE student_id = sid`. */
  function FirstStudent(students: seq<Student>, sid: string): (r: Option<Student>)
    ensures r.None? <==> forall s :: s in students ==> s.studentId != sid
    ensures r.Some? ==> r.value in students && r.value.studentId == sid
    ensures r.Some? ==> exists i :: 0 <= i < |students| && students[i] == r.value
                                   && forall j :: 0 <= j < i ==> students[j].studentId != sid
  {
    var i := StudentIndex(students, sid);
    if i < |students| then Some(students[i]) else None
  }

  /** `getInvoice` answers with the first invoice row of the student, or with nothing. */
  function GetInvoice(st: Store, sid: string): (r: Option<Invoice>)
    ensures r.None? <==> forall v :: v in st.invoices ==> v.student != sid
    ensures r.Some? ==> r.value in st.invoices && r.value.student == sid
    ensures r.Some? ==> exists i :: 0 <= i < |st.invoices| && st.invoices[i] == r.value
                                   && forall j :: 0 <= j < i ==> st.invoices[j].student != sid
  {
    FirstInvoice(st.invoices, sid)
  }

  /** Position of the first invoice row of `sid`; `|invoices|` when there is none. */
  function InvoiceIndex(invoices: seq<Invoice>, sid: string): (i: nat)
    ensures i <= |invoices|
    ensures i < |invoices| ==> invoices[i].student == sid
    ensures forall j :: 0 <= j < i ==> invoices[j].student != sid
    decreases |invoices|
  {
    if |invoices| == 0 || invoices[0].student == sid then 0
    else 1 + InvoiceIndex(invoices[1..], sid)
  }

  function FirstInvoice(invoices: seq<Invoice>, sid: string): (r: Option<Invoice>)
    ensures r.None? <==> forall v :: v in invoices ==> v.student != sid
    ensures r.Some? ==> r.value in invoices && r.value.student == sid
    ensures r.Some? ==> exists i :: 0 <= i < |invoices| && invoices[i] == r.value
                                   && forall j :: 0 <= j < i ==> invoices[j].student != sid
  {
    var i := InvoiceIndex(invoices, sid);
    if i < |invoices| then Some(invoices[i]) else None
  }

  const StudentNotFound: string := "Student not found"

  /** The columns `getStudentDetails` selects. */
  datatype StudentDetails = StudentDetails(
    studentId: string,
    firstName: string,
    lastName: string,
    programTitle: Option<string>,
    programYear: Option<int>)

  function Details(s: Student): StudentDetails {
    StudentDetails(s.studentId, s.firstName, s.lastName, s.programTitle, s.programYear)
  }

  /** `getStudentDetails`: 404 for an unknown student, else the first matching row. */
  function GetStudentDetails(st: Store, sid: string): (r: Reply<StudentDetails>)
    ensures r.Err? <==> forall s :: s in st.students ==> s.studentId != sid
    ensures r.Err? ==> r == Err(404, StudentNotFound)
    ensures r.Ok? ==> r.value.studentId == sid
                      && exists s :: s in st.students && s.studentId == sid && r.value == Details(s)
  {
    match FirstStudent(st.students, sid)
    case None => Err(404, StudentNotFound)
    case Some(s) => Ok(Details(s))
  }

  // ----- getAudit -----

  const PassingGrades: set<string> := {"A", "B", "C", "D"}

  /** The CASE expression of the audit query; a NULL grade is not IN the list, so it fails. */
  function Status(grade: Option<string>): (status: string)
    ensures status == "Passed" || status == "Failed"
    ensures status == "Passed" <==> grade.Some? && grade.value in PassingGrades
  {
    if grade.Some? && grade.value in PassingGrades then "Passed" else "Failed"
  }

  datatype AuditRow = AuditRow(title: string, grade: Option<string>, status: string)

  /** The join partners of one grade row: the units whose id is its unit id. */
  function GradeRows(g: Grade, units: seq<Unit>): (rows: seq<AuditRow>)
    ensures forall r :: r in rows <==>
              exists u :: u in units && u.id == g.unitId && r == AuditRow(u.title, g.grade, Status(g.grade))
    decreases |units|
  {
    if |units| == 0 then []
    else
      assert forall u :: u in units ==> u == units[0] || u in units[1..];
      var rest := GradeRows(g, units[1..]);
      if units[0].id == g.unitId then [AuditRow(units[0].title, g.grade, Status(g.grade))] + rest else rest
  }

  function AuditRows(grades: seq<Grade>, units: seq<Unit>, sid: string): seq<AuditRow>
    decreases |grades|
  {
    if |grades| == 0 then []
    else (if grades[0].student == sid then GradeRows(grades[0], units) else [])
         + AuditRows(grades[1..], units, sid)
  }

  /** `getAudit`: the student's grade rows joined with their units, each with its status. */
  function GetAudit(st: Store, sid: string): (rows: seq<AuditRow>)
    ensures forall r :: r in rows ==> (r.status == "Passed" <==> r.grade.Some? && r.grade.value in PassingGrades)
  {
    AuditRowsStatus(st.grades, st.units, sid);
    AuditRows(st.grades, st.units, sid)
  }

  lemma {:induction false} AuditRowsStatus(grades: seq<Grade>, units: seq<Unit>, sid: string)
    ensures forall r :: r in AuditRows(grades, units, sid) ==> r.status == Status(r.grade)
    decreases |grades|
  {
    if |grades| > 0 {
      AuditRowsStatus(grades[1..], units, sid);
    }
  }

  /** A row is in the grade audit exactly when some grade row of the student joins some
      unit with that unit's title, that grade and that grade's status. */
  lemma {:induction false} AuditRowsMembership(grades: seq<Grade>, units: seq<Unit>, sid: string, r: AuditRow)
    ensures r in AuditRows(grades, units, sid) <==>
            exists g :: g in grades && g.student == sid && r in GradeRows(g, units)
    decreases |grades|
  {
    if |grades| > 0 {
      AuditRowsMembership(grades[1..], units, sid, r);
      assert forall g :: g in grades <==> g == grades[0] || g in grades[1..];
    }
  }

  lemma GetAuditMembership(st: Store, sid: string, r: AuditRow)
    ensures r in GetAudit(st, sid) <==>
            exists g, u :: g in st.grades && g.student == sid && u in st.units && u.id == g.unitId
                           && r == AuditRow(u.title, g.grade, Status(g.grade))
  {
    AuditRowsMembership(st.grades, st.units, sid, r);
  }

  // ----- getAvailableUnits -----

  datatype AvailableUnit = AvailableUnit(unitCode: string, title: string)

  /** Whether a unit matches the three query keys. A query key that is absent is sent as
      NULL, and `=` with NULL on either side holds for no row. */
  predicate Offered(u: Unit, programTitle: Option<string>, year: Option<int>, semester: Option<int>) {
    && programTitle.Some? && year.Some? && semester.Some?
    && u.programTitle == programTitle && u.yearOffered == year && u.semesterOffered == semester
  }

  /** `getAvailableUnits`: code and title of every unit matching all three keys, one entry
      per matching unit. */
  function GetAvailableUnits(st: Store, programTitle: Option<string>, year: Option<int>, semester: Option<int>): (r: seq<AvailableUnit>)
    ensures |r| <= |st.units|
    ensures forall a :: a in r <==>
              exists u :: u in st.units && Offered(u, programTitle, year, semester) && a == AvailableUnit(u.unitCode, u.title)
    ensures |r| == |OfferedUnits(st.units, programTitle, year, semester)|
    ensures (programTitle.None? || year.None? || semester.None?) ==> r == []
  {
    AvailableUnitsFacts(st.units, programTitle, year, semester);
    AvailableUnits(st.units, programTitle, year, semester)
  }

  function AvailableUnits(units: seq<Unit>, programTitle: Option<string>, year: Option<int>, semester: Option<int>): (r: seq<AvailableUnit>)
    ensures |r| <= |units|
    decreases |units|
  {
    if |units| == 0 then []
    else
      var rest := AvailableUnits(units[1..], programTitle, year, semester);
      if Offered(units[0], programTitle, year, semester) then [AvailableUnit(units[0].unitCode, units[0].title)] + rest
      else rest
  }

  /** An entry is listed exactly when some unit matching all three keys carries that code
      and title. */
  lemma {:induction false} AvailableUnitsMembership(units: seq<Unit>, programTitle: Option<string>, year: Option<int>, semester: Option<int>, a: AvailableUnit)
    ensures a in AvailableUnits(units, programTitle, year, semester) <==>
            exists u :: u in units && Offered(u, programTitle, year, semester)
                        && a == AvailableUnit(u.unitCode, u.title)
    decreases |units|
  {
    if |units| > 0 {
      AvailableUnitsMembership(units[1..], programTitle, year, semester, a);
      assert forall u :: u in units <==> u == units[0] || u in units[1..];
    }
  }

  lemma AvailableUnitsFacts(units: seq<Unit>, programTitle: Option<string>, year: Option<int>, semester: Option<int>)
    ensures var r := AvailableUnits(units, programTitle, year, semester);
            && (forall a :: a in r <==>
                  exists u :: u in units && Offered(u, programTitle, year, semester) && a == AvailableUnit(u.unitCode, u.title))
            && |r| == |OfferedUnits(units, programTitle, year, semester)|
            && ((programTitle.None? || year.None? || semester.None?) ==> r == [])
  {
    forall a ensures a in AvailableUnits(units, programTitle, year, semester) <==>
                     exists u :: u in units && Offered(u, programTitle, year, semester) && a == AvailableUnit(u.unitCode, u.title) {
      AvailableUnitsMembership(units, programTitle, year, semester, a);
    }
    AvailableUnitsProjection(units, programTitle, year, semester);
    if programTitle.None? || year.None? || semester.None? {
      AvailableUnitsWithoutKey(units, programTitle, year, semester);
    }
  }

  /** A request missing any of the three query keys lists nothing (and is not refused). */
  lemma {:induction false} AvailableUnitsWithoutKey(units: seq<Unit>, programTitle: Option<string>, year: Option<int>, semester: Option<int>)
    requires programTitle.None? || year.None? || semester.None?
    ensures AvailableUnits(units, programTitle, year, semester) == []
    decreases |units|
  {
    if |units| > 0 {
      AvailableUnitsWithoutKey(units[1..], programTitle, year, semester);
    }
  }

  /** The units `SELECT * FROM units WHERE` the three keys would return, in table order. */
  function OfferedUnits(units: seq<Unit>, programTitle: Option<string>, year: Option<int>, semester: Option<int>): (r: seq<Unit>)
    ensures forall u :: u in r <==> u in units && Offered(u, programTitle, year, semester)
    decreases |units|
  {
    if |units| == 0 then []
    else
      assert forall u :: u in units <==> u == units[0] || u in units[1..];
      (if Offered(units[0], programTitle, year, semester) then [units[0]] else [])
      + OfferedUnits(units[1..], programTitle, year, semester)
  }

  /** The listing is the matching units, in table order, each cut down to code and title. */
  lemma {:induction false} AvailableUnitsProjection(units: seq<Unit>, programTitle: Option<string>, year: Option<int>, semester: Option<int>)
    ensures var r := AvailableUnits(units, programTitle, year, semester);
            var offered := OfferedUnits(units, programTitle, year, semester);
            |r| == |offered|
            && forall i :: 0 <= i < |r| ==> r[i] == AvailableUnit(offered[i].unitCode, offered[i].title)
    decreases |units|
  {
    if |units| > 0 {
      AvailableUnitsProjection(units[1..], programTitle, year, semester);
      var rest := AvailableUnits(units[1..], programTitle, year, semester);
      var offeredRest := OfferedUnits(units[1..], programTitle, year, semester);
      if Offered(units[0], programTitle, year, semester) {
        assert AvailableUnits(units, programTitle, year, semester) == [AvailableUnit(units[0].unitCode, units[0].title)] + rest;
        assert OfferedUnits(units, programTitle, year, semester) == [units[0]] + offeredRest;
        ProjectionCons(units[0], rest, offeredRest);
      } else {
        assert AvailableUnits(units, programTitle, year, semester) == rest;
        assert OfferedUnits(units, programTitle, year, semester) == offeredRest;
      }
    }
  }

  lemma ProjectionCons(u: Unit, r: seq<AvailableUnit>, offered: seq<Unit>)
    requires |r| == |offered|
    requires forall i :: 0 <= i < |r| ==> r[i] == AvailableUnit(offered[i].unitCode, offered[i].title)
    ensures var r' := [AvailableUnit(u.unitCode, u.title)] + r;
            var offered' := [u] + offered;
            |r'| == |offered'|
            && forall i :: 0 <= i < |r'| ==> r'[i] == AvailableUnit(offered'[i].unitCode, offered'[i].title)
  {
  }
}

=== FILE: decimal.dfy ===
/** Decimal renderings of natural numbers.

    Two places of the registration handler depend on them: the capacity
    message interpolates the existing count (`${existingCount}`), and the
    enumeration order of a JavaScript object depends on which of its keys
    are canonical decimal numerals. */
module Decimal {

  predicate IsDigit(c: char) {
    '0' <= c <= '9'
  }

  predicate AllDigits(s: string) {
    forall i :: 0 <= i < |s| ==> IsDigit(s[i])
  }

  function DigitValue(c: char): nat
    requires IsDigit(c)
  {
    c as int - '0' as int
  }

  function DigitChar(d: nat): (c: char)
    requires d < 10
    ensures IsDigit(c) && DigitValue(c) == d
  {
    ('0' as int + d) as char
  }

  /** The value of a run of decimal digits, most significant digit first. */
  function ParseDecimal(s: string): nat
    requires AllDigits(s)
    decreases |s|
  {
    if |s| == 0 then 0 else ParseDecimal(s[..|s| - 1]) * 10 + DigitValue(s[|s| - 1])
  }

  /** A numeral without superfluous leading zeros: "0", "7", "42", but not "", "07" or "4a". */
  predicate IsCanonical(s: string) {
    |s| > 0 && AllDigits(s) && (s[0] == '0' ==> |s| == 1)
  }

  /** The shortest decimal numeral of `n`, as JavaScript renders a non-negative integer. */
  function DecimalString(n: nat): (s: string)
    ensures IsCanonical(s)
    ensures s[0] == '0' <==> n == 0
    decreases n
  {
    if n < 10 then [DigitChar(n)]
    else
      var prefix := DecimalString(n / 10);
      assert prefix[0] != '0';
      prefix + [DigitChar(n % 10)]
  }

  lemma {:induction false} ParseDecimalOfDecimalString(n: nat)
    ensures ParseDecimal(DecimalString(n)) == n
    decreases n
  {
    var s := DecimalString(n);
    if n < 10 {
      assert s[..|s| - 1] == [];
    } else {
      assert s[..|s| - 1] == DecimalString(n / 10);
      ParseDecimalOfDecimalString(n / 10);
    }
  }

  lemma {:induction false} ParseDecimalPositive(s: string)
    requires |s| > 0 && AllDigits(s) && s[0] != '0'
    ensures ParseDecimal(s) > 0
    decreases |s|
  {
    if |s| > 1 {
      ParseDecimalPositive(s[..|s| - 1]);
    }
  }

  /** Every canonical numeral is the rendering of its own value. */
  lemma {:induction false} DecimalStringOfParseDecimal(s: string)
    requires IsCanonical(s)
    ensures DecimalString(ParseDecimal(s)) == s
    decreases |s|
  {
    var last := s[|s| - 1];
    assert DigitChar(DigitValue(last)) == last;
    if |s| == 1 {
      assert s[..0] == [];
      assert s == [last];
    } else {
      var prefix := s[..|s| - 1];
      assert prefix[0] == s[0];
      ParseDecimalPositive(prefix);
      DecimalStringOfParseDecimal(prefix);
      var v := ParseDecimal(s);
      assert v == ParseDecimal(prefix) * 10 + DigitValue(last);
      assert v / 10 == ParseDecimal(prefix);
      assert v % 10 == DigitValue(last);
      assert s == prefix + [last];
    }
  }

  /** Two canonical numerals with the same value are the same string. */
  lemma CanonicalInjective(a: string, b: string)
    requires IsCanonical(a) && IsCanonical(b)
    requires ParseDecimal(a) == ParseDecimal(b)
    ensures a == b
  {
    DecimalStringOfParseDecimal(a);
    DecimalStringOfParseDecimal(b);
  }
}

=== FILE: full_audit.dfy ===
/** `getFullAudit`: the units of the student's program, in offering order, each marked
    with whether it has prerequisites and whether the student has registered for it. */
module FullAudit {
  import opened Store
  import opened Audit
  import JsObject

  /** One row of the LEFT JOIN of the program's units with the prerequisites table. */
  datatype Joined = Joined(unitCode: string, title: string, yearOffered: Option<int>,
                           semesterOffered: Option<int>, isPrerequisite: bool)

  /** One element of the JSON array the handler answers with. */
  datatype Entry = Entry(unitCode: string, title: string, yearOffered: Option<int>,
                         semesterOffered: Option<int>, isPrerequisite: bool, isRegistered: bool)

  // ----- The query: WHERE, LEFT JOIN, ORDER BY -----

  /** `WHERE u.program_title = $1`; comparing with NULL on either side selects nothing. */
  predicate InProgram(u: Unit, programTitle: Option<string>) {
    programTitle.Some? && u.programTitle == programTitle
  }

  /** The number of LEFT JOIN partners of a unit with code `code`: the prerequisites rows
      naming it. */
  function PrerequisiteCount(prereqs: seq<Prerequisite>, code: string): (n: nat)
    ensures n <= |prereqs|
    ensures n > 0 <==> exists p :: p in prereqs && p.unitCode == code
    decreases |prereqs|
  {
    if |prereqs| == 0 then 0
    else
      assert forall p :: p in prereqs ==> p == prereqs[0] || p in prereqs[1..];
      (if prereqs[0].unitCode == code then 1 else 0) + PrerequisiteCount(prereqs[1..], code)
  }

  /** The joined row of unit `u` with the given `is_prerequisite` flag. */
  function JoinedOf(u: Unit, isPrerequisite: bool): Joined {
    Joined(u.unitCode, u.title, u.yearOffered, u.semesterOffered, isPrerequisite)
  }

  /** The LEFT JOIN partners of `u` among the prerequisites rows, in table order: one row
      per prerequisites row with the unit's code, flagged when that row's unit_id is not
      NULL. */
  function JoinMatches(u: Unit, prereqs: seq<Prerequisite>): (rows: seq<Joined>)
    ensures |rows| == PrerequisiteCount(prereqs, u.unitCode)
    decreases |prereqs|
  {
    if |prereqs| == 0 then []
    else (if prereqs[0].unitCode == u.unitCode then [JoinedOf(u, prereqs[0].unitId.Some?)] else [])
         + JoinMatches(u, prereqs[1..])
  }

  /** The LEFT JOIN rows of one unit: its matches, or a single unflagged row when there
      is none. */
  function JoinUnit(u: Unit, prereqs: seq<Prerequisite>): seq<Joined> {
    var matches := JoinMatches(u, prereqs);
    if |matches| == 0 then [JoinedOf(u, false)] else matches
  }

  /** The unsorted result of the query, unit by unit in table order. */
  function JoinProgram(units: seq<Unit>, prereqs: seq<Prerequisite>, programTitle: Option<string>): seq<Joined>
    decreases |units|
  {
    if |units| == 0 then []
    else (if InProgram(units[0], programTitle) then JoinUnit(units[0], prereqs) else [])
         + JoinProgram(units[1..], prereqs, programTitle)
  }

  /** `ORDER BY` on one nullable integer column, ascending with NULLs last: `a` sorts
      strictly before `b`. */
  predicate Before(a: Option<int>, b: Option<int>) {
    a.Some? && (b.None? || a.value < b.value)
  }

  /** `ORDER BY u.year_offered, u.semester_offered`: `a` may precede `b`. */
  predicate InOrder(a: Joined, b: Joined) {
    Before(a.yearOffered, b.yearOffered)
    || (a.yearOffered == b.yearOffered && !Before(b.semesterOffered, a.semesterOffered))
  }

  lemma InOrderTotal(a: Joined, b: Joined)
    ensures InOrder(a, b) || InOrder(b, a)
  {
  }

  lemma InOrderTransitive(a: Joined, b: Joined, c: Joined)
    requires InOrder(a, b) && InOrder(b, c)
    ensures InOrder(a, c)
  {
  }

  predicate Sorted(s: seq<Joined>) {
    forall i, j :: 0 <= i < j < |s| ==> InOrder(s[i], s[j])
  }

  lemma SortedCons(x: Joined, s: seq<Joined>)
    requires Sorted(s) && (|s| > 0 ==> InOrder(x, s[0]))
    ensures Sorted([x] + s)
  {
    forall j | 0 <= j < |s| ensures InOrder(x, s[j]) {
      if j > 0 {
        InOrderTransitive(x, s[0], s[j]);
      }
    }
    assert forall j :: 0 < j < |s| + 1 ==> ([x] + s)[j] == s[j - 1];
  }

  /** Places `x` before the first element it may precede. */
  function Insert(x: Joined, s: seq<Joined>): (r: seq<Joined>)
    requires Sorted(s)
    ensures Sorted(r)
    ensures multiset(r) == multiset(s) + multiset{x}
    ensures |r| > 0 && (r[0] == x || (|s| > 0 && r[0] == s[0]))
    decreases |s|
  {
    if |s| == 0 then [x]
    else if InOrder(x, s[0]) then
      SortedCons(x, s);
      [x] + s
    else
      InOrderTotal(x, s[0]);
      var rest := Insert(x, s[1..]);
      SortedCons(s[0], rest);
      assert s == [s[0]] + s[1..];
      [s[0]] + rest
  }

  /** A stable insertion sort; the database leaves the order of ties open, and this
      model keeps them in join order. */
  function Sort(s: seq<Joined>): (r: seq<Joined>)
    ensures Sorted(r)
    ensures multiset(r) == multiset(s)
    decreases |s|
  {
    if |s| == 0 then []
    else
      assert s == [s[0]] + s[1..];
      Insert(s[0], Sort(s[1..]))
  }

  // ----- The handler -----

  /** `new Set(rows.map(row => row.unit_code))` over the student's registered_units rows. */
  function RegisteredCodes(regs: seq<RegisteredUnit>, sid: string): (codes: set<string>)
    ensures forall c :: c in codes <==> exists r :: r in regs && r.student == sid && r.unitCode == c
  {
    set r | r in regs && r.student == sid :: r.unitCode
  }

  function Stamp(rows: seq<Joined>, codes: set<string>): (entries: seq<Entry>)
    ensures |entries| == |rows|
    ensures forall i :: 0 <= i < |rows| ==>
              entries[i] == Entry(rows[i].unitCode, rows[i].title, rows[i].yearOffered,
                                  rows[i].semesterOffered, rows[i].isPrerequisite, rows[i].unitCode in codes)
  {
    seq(|rows|, i requires 0 <= i < |rows| =>
      Entry(rows[i].unitCode, rows[i].title, rows[i].yearOffered, rows[i].semesterOffered,
            rows[i].isPrerequisite, rows[i].unitCode in codes))
  }

  /** `getFullAudit`. */
  function GetFullAudit(st: Store, sid: string): (r: Reply<seq<Entry>>)
    ensures r.Err? <==> forall s :: s in st.students ==> s.studentId != sid
    ensures r.Err? ==> r == Err(404, StudentNotFound)
    ensures r.Ok? ==> forall i, j :: 0 <= i < j < |r.value| ==>
              Before(r.value[i].yearOffered, r.value[j].yearOffered)
              || (r.value[i].yearOffered == r.value[j].yearOffered
                  && !Before(r.value[j].semesterOffered, r.value[i].semesterOffered))
  {
    match FirstStudent(st.students, sid)
    case None => Err(404, StudentNotFound)
    case Some(student) =>
      var rows := Sort(JoinProgram(st.units, st.prerequisites, student.programTitle));
      Ok(Stamp(rows, RegisteredCodes(st.registered, sid)))
  }

  // ----- Properties -----

  /** Some prerequisites row names `code`. */
  predicate HasPrerequisite(prereqs: seq<Prerequisite>, code: string) {
    exists p :: p in prereqs && p.unitCode == code
  }

  /** The student holds a registered_units row for `code`, in any semester. */
  predicate HasRegistration(regs: seq<RegisteredUnit>, sid: string, code: string) {
    exists r :: r in regs && r.student == sid && r.unitCode == code
  }

  /** The audit entry of program unit `u` with the given `isPrerequisite` flag. */
  function EntryOf(u: Unit, st: Store, sid: string, isPrerequisite: bool): Entry {
    Entry(u.unitCode, u.title, u.yearOffered, u.semesterOffered,
          isPrerequisite, HasRegistration(st.registered, sid, u.unitCode))
  }

  /** The number of prerequisites rows naming `code` whose unit_id is present (`linked`)
      or NULL (not `linked`). */
  function LinkCount(prereqs: seq<Prerequisite>, code: string, linked: bool): (n: nat)
    ensures n > 0 <==> exists p :: p in prereqs && p.unitCode == code && p.unitId.Some? == linked
    decreases |prereqs|
  {
    if |prereqs| == 0 then 0
    else
      assert forall p :: p in prereqs ==> p == prereqs[0] || p in prereqs[1..];
      (if prereqs[0].unitCode == code && prereqs[0].unitId.Some? == linked then 1 else 0)
      + LinkCount(prereqs[1..], code, linked)
  }

  function Indicator(b: bool): nat {
    if b then 1 else 0
  }

  /** How many times the audit should list `e` for the program unit `u`: once, unflagged,
      when no prerequisites row names `u`; otherwise once per such row, flagged exactly
      when that row's unit_id is present. */
  function UnitMultiplicity(u: Unit, st: Store, sid: string, e: Entry): nat {
    if !HasPrerequisite(st.prerequisites, u.unitCode) then Indicator(e == EntryOf(u, st, sid, false))
    else if e == EntryOf(u, st, sid, true) then LinkCount(st.prerequisites, u.unitCode, true)
    else if e == EntryOf(u, st, sid, false) then LinkCount(st.prerequisites, u.unitCode, false)
    else 0
  }

  /** `UnitMultiplicity` summed over the units of program `pt`. */
  function ProgramMultiplicity(units: seq<Unit>, st: Store, sid: string, pt: Option<string>, e: Entry): nat
    decreases |units|
  {
    if |units| == 0 then 0
    else (if InProgram(units[0], pt) then UnitMultiplicity(units[0], st, sid, e) else 0)
         + ProgramMultiplicity(units[1..], st, sid, pt, e)
  }

  /** Whether the audit lists `e` for the program unit `u` at all. */
  predicate Lists(u: Unit, st: Store, sid: string, e: Entry) {
    (!HasPrerequisite(st.prerequisites, u.unitCode) && e == EntryOf(u, st, sid, false))
    || exists p :: p in st.prerequisites && p.unitCode == u.unitCode && e == EntryOf(u, st, sid, p.unitId.Some?)
  }

  /** Every prerequisites row naming `code` has a unit_id or has none. */
  lemma {:induction false} PrerequisiteCountSplit(prereqs: seq<Prerequisite>, code: string)
    ensures PrerequisiteCount(prereqs, code) == LinkCount(prereqs, code, true) + LinkCount(prereqs, code, false)
    decreases |prereqs|
  {
    if |prereqs| > 0 {
      PrerequisiteCountSplit(prereqs[1..], code);
    }
  }

  lemma StampConcat(a: seq<Joined>, b: seq<Joined>, codes: set<string>)
    ensures Stamp(a + b, codes) == Stamp(a, codes) + Stamp(b, codes)
  {
    assert forall i :: 0 <= i < |a| + |b| ==> Stamp(a + b, codes)[i] == (Stamp(a, codes) + Stamp(b, codes))[i];
  }

  lemma StampJoinedOf(u: Unit, st: Store, sid: string, isPrerequisite: bool)
    ensures Stamp([JoinedOf(u, isPrerequisite)], RegisteredCodes(st.registered, sid))
            == [EntryOf(u, st, sid, isPrerequisite)]
  {
  }

  /** Stamping is row by row, so reordering the rows reorders the entries. */
  lemma {:induction false} StampPermutation(a: seq<Joined>, b: seq<Joined>, codes: set<string>, e: Entry)
    requires multiset(a) == multiset(b)
    ensures multiset(Stamp(a, codes))[e] == multiset(Stamp(b, codes))[e]
    decreases |a|
  {
    if |a| == 0 {
      assert |b| == |multiset(b)| == 0;
    } else {
      assert a[0] in multiset(b);
      var i :| 0 <= i < |b| && b[i] == a[0];
      var rest := b[..i] + b[i + 1..];
      JsObject.MultisetRemoveAt(a, b, i);
      assert a == [a[0]] + a[1..];
      StampPermutation(a[1..], rest, codes, e);
      StampConcat([a[0]], a[1..], codes);
      assert multiset(Stamp(a, codes))[e] == multiset(Stamp([a[0]], codes))[e] + multiset(Stamp(a[1..], codes))[e];
      StampAround(b, i, codes);
      assert [b[i]] == [a[0]];
      StampConcat(b[..i], b[i + 1..], codes);
      assert multiset(Stamp(rest, codes))[e] == multiset(Stamp(b[..i], codes))[e] + multiset(Stamp(b[i + 1..], codes))[e];
    }
  }

  lemma StampAround(b: seq<Joined>, i: nat, codes: set<string>)
    requires i < |b|
    ensures multiset(Stamp(b, codes))
            == multiset(Stamp(b[..i], codes)) + multiset(Stamp([b[i]], codes)) + multiset(Stamp(b[i + 1..], codes))
  {
    assert b == b[..i] + [b[i]] + b[i + 1..];
    StampConcat(b[..i] + [b[i]], b[i + 1..], codes);
    StampConcat(b[..i], [b[i]], codes);
  }

  /** How often the stamped matches of `u` among `prereqs` should hold `e`. */
  function MatchMultiplicity(u: Unit, prereqs: seq<Prerequisite>, st: Store, sid: string, e: Entry): nat {
    if e == EntryOf(u, st, sid, true) then LinkCount(prereqs, u.unitCode, true)
    else if e == EntryOf(u, st, sid, false) then LinkCount(prereqs, u.unitCode, false)
    else 0
  }

  lemma MatchMultiplicityStep(u: Unit, prereqs: seq<Prerequisite>, st: Store, sid: string, e: Entry)
    requires |prereqs| > 0
    ensures MatchMultiplicity(u, prereqs, st, sid, e)
            == (if prereqs[0].unitCode == u.unitCode then Indicator(e == EntryOf(u, st, sid, prereqs[0].unitId.Some?)) else 0)
               + MatchMultiplicity(u, prereqs[1..], st, sid, e)
  {
  }

  lemma {:induction false} MatchesMultiplicity(u: Unit, prereqs: seq<Prerequisite>, st: Store, sid: string, e: Entry)
    ensures multiset(Stamp(JoinMatches(u, prereqs), RegisteredCodes(st.registered, sid)))[e]
            == MatchMultiplicity(u, prereqs, st, sid, e)
    decreases |prereqs|
  {
    if |prereqs| > 0 {
      var codes := RegisteredCodes(st.registered, sid);
      var p := prereqs[0];
      var rest := JoinMatches(u, prereqs[1..]);
      MatchesMultiplicity(u, prereqs[1..], st, sid, e);
      MatchMultiplicityStep(u, prereqs, st, sid, e);
      if p.unitCode == u.unitCode {
        var x := EntryOf(u, st, sid, p.unitId.Some?);
        StampConcat([JoinedOf(u, p.unitId.Some?)], rest, codes);
        StampJoinedOf(u, st, sid, p.unitId.Some?);
        assert Stamp(JoinMatches(u, prereqs), codes) == [x] + Stamp(rest, codes);
        assert multiset(Stamp(JoinMatches(u, prereqs), codes))[e]
               == Indicator(e == x) + multiset(Stamp(rest, codes))[e];
      } else {
        assert JoinMatches(u, prereqs) == rest;
      }
    }
  }

  lemma JoinUnitMultiplicity(u: Unit, st: Store, sid: string, e: Entry)
    ensures multiset(Stamp(JoinUnit(u, st.prerequisites), RegisteredCodes(st.registered, sid)))[e]
            == UnitMultiplicity(u, st, sid, e)
  {
    if PrerequisiteCount(st.prerequisites, u.unitCode) == 0 {
      StampJoinedOf(u, st, sid, false);
    } else {
      MatchesMultiplicity(u, st.prerequisites, st, sid, e);
    }
  }

  lemma {:induction false} JoinProgramMultiplicity(units: seq<Unit>, st: Store, sid: string, pt: Option<string>, e: Entry)
    ensures multiset(Stamp(JoinProgram(units, st.prerequisites, pt), RegisteredCodes(st.registered, sid)))[e]
            == ProgramMultiplicity(units, st, sid, pt, e)
    decreases |units|
  {
    if |units| > 0 {
      var codes := RegisteredCodes(st.registered, sid);
      var head := if InProgram(units[0], pt) then JoinUnit(units[0], st.prerequisites) else [];
      JoinProgramMultiplicity(units[1..], st, sid, pt, e);
      StampConcat(head, JoinProgram(units[1..], st.prerequisites, pt), codes);
      if InProgram(units[0], pt) {
        JoinUnitMultiplicity(units[0], st, sid, e);
      }
    }
  }

  /** The program the audit lists: that of the first student row with the id. */
  function ProgramOf(st: Store, sid: string): Option<string>
    requires exists s :: s in st.students && s.studentId == sid
  {
    FirstStudent(st.students, sid).value.programTitle
  }

  /** The audit of a known student lists each entry exactly as often as the LEFT JOIN
      yields it: for each unit of the student's program, once with `isPrerequisite` false
      when no prerequisites row names the unit, and otherwise once per such row, with
      `isPrerequisite` true exactly when that row's unit_id is present. `isRegistered` is
      true exactly when the student has a registered_units row for the unit. */
  lemma FullAuditMultiplicity(st: Store, sid: string, e: Entry)
    requires exists s :: s in st.students && s.studentId == sid
    ensures GetFullAudit(st, sid).Ok?
    ensures multiset(GetFullAudit(st, sid).value)[e] == ProgramMultiplicity(st.units, st, sid, ProgramOf(st, sid), e)
  {
    var joined := JoinProgram(st.units, st.prerequisites, ProgramOf(st, sid));
    var codes := RegisteredCodes(st.registered, sid);
    StampPermutation(Sort(joined), joined, codes, e);
    JoinProgramMultiplicity(st.units, st, sid, ProgramOf(st, sid), e);
  }

  lemma UnitMultiplicityPositive(u: Unit, st: Store, sid: string, e: Entry)
    ensures UnitMultiplicity(u, st, sid, e) > 0 <==> Lists(u, st, sid, e)
  {
    if HasPrerequisite(st.prerequisites, u.unitCode) && Lists(u, st, sid, e) {
      var p :| p in st.prerequisites && p.unitCode == u.unitCode && e == EntryOf(u, st, sid, p.unitId.Some?);
      assert LinkCount(st.prerequisites, u.unitCode, p.unitId.Some?) > 0;
    }
  }

  lemma {:induction false} ProgramMultiplicityPositive(units: seq<Unit>, st: Store, sid: string, pt: Option<string>, e: Entry)
    ensures ProgramMultiplicity(units, st, sid, pt, e) > 0 <==>
            exists u :: u in units && InProgram(u, pt) && Lists(u, st, sid, e)
    decreases |units|
  {
    if |units| > 0 {
      ProgramMultiplicityPositive(units[1..], st, sid, pt, e);
      UnitMultiplicityPositive(units[0], st, sid, e);
      assert forall u :: u in units <==> u == units[0] || u in units[1..];
    }
  }

  /** An entry is in the audit of a known student exactly when some unit of the student's
      program lists it, as `Lists` says. */
  lemma FullAuditMembership(st: Store, sid: string, e: Entry)
    requires exists s :: s in st.students && s.studentId == sid
    ensures GetFullAudit(st, sid).Ok?
    ensures e in GetFullAudit(st, sid).value <==>
            exists u :: u in st.units && InProgram(u, ProgramOf(st, sid)) && Lists(u, st, sid, e)
  {
    FullAuditMultiplicity(st, sid, e);
    ProgramMultiplicityPositive(st.units, st, sid, ProgramOf(st, sid), e);
  }

  /** The number of rows the LEFT JOIN yields: each program unit once per matching
      prerequisite row, and at least once. */
  function JoinSize(units: seq<Unit>, prereqs: seq<Prerequisite>, programTitle: Option<string>): nat
    decreases |units|
  {
    if |units| == 0 then 0
    else
      var k := PrerequisiteCount(prereqs, units[0].unitCode);
      (if InProgram(units[0], programTitle) then (if k == 0 then 1 else k) else 0)
      + JoinSize(units[1..], prereqs, programTitle)
  }

  lemma {:induction false} JoinProgramSize(units: seq<Unit>, prereqs: seq<Prerequisite>, programTitle: Option<string>)
    ensures |JoinProgram(units, prereqs, programTitle)| == JoinSize(units, prereqs, programTitle)
    decreases |units|
  {
    if |units| > 0 {
      JoinProgramSize(units[1..], prereqs, programTitle);
    }
  }

  /** In all, a unit appears once per prerequisites row naming it, and once if there is none. */
  lemma FullAuditLength(st: Store, sid: string)
    requires exists s :: s in st.students && s.studentId == sid
    ensures GetFullAudit(st, sid).Ok?
    ensures |GetFullAudit(st, sid).value| == JoinSize(st.units, st.prerequisites, ProgramOf(st, sid))
  {
    var joined := JoinProgram(st.units, st.prerequisites, ProgramOf(st, sid));
    JoinProgramSize(st.units, st.prerequisites, ProgramOf(st, sid));
    assert |Sort(joined)| == |multiset(Sort(joined))| == |multiset(joined)| == |joined|;
  }

  /** A student row without a program title lists no units at all. */
  lemma FullAuditWithoutProgram(st: Store, sid: string)
    requires exists s :: s in st.students && s.studentId == sid
    requires ProgramOf(st, sid).None?
    ensures GetFullAudit(st, sid) == Ok([])
  {
    var joined := JoinProgram(st.units, st.prerequisites, None);
    JoinProgramSize(st.units, st.prerequisites, None);
    JoinSizeWithoutProgram(st.units, st.prerequisites);
  }

  lemma {:induction false} JoinSizeWithoutProgram(units: seq<Unit>, prereqs: seq<Prerequisite>)
    ensures JoinSize(units, prereqs, None) == 0
    decreases |units|
  {
    if |units| > 0 {
      JoinSizeWithoutProgram(units[1..], prereqs);
    }
  }
}

=== FILE: js_object.dfy ===
/** A plain JavaScript object used as a dictionary, and the order in which
    `for (const key in obj)` visits its keys.

    An object is modelled as its own properties in creation order. For an
    ordinary object the enumeration order is the one of section 10.1.11.1
    (OrdinaryOwnPropertyKeys) of ECMA-262: first every key that is an array
    index, in ascending numeric order, then every other string key in the
    order the properties were created. */
module JsObject {
  import opened Decimal

  datatype Property<V> = Property(key: string, value: V)

  /** The largest array index, 2^32 - 2. */
  const MaxArrayIndex: nat := 0xFFFF_FFFE

  /** A key is an array index when it is the canonical numeral of an integer below 2^32 - 1. */
  predicate IsArrayIndex(key: string) {
    IsCanonical(key) && ParseDecimal(key) <= MaxArrayIndex
  }

  function IndexValue(key: string): nat
    requires IsArrayIndex(key)
  {
    ParseDecimal(key)
  }

  /** No two properties of `obj` share a key. */
  predicate DistinctKeys<V(==)>(obj: seq<Property<V>>)
    decreases |obj|
  {
    |obj| == 0 || ((forall q :: q in obj[1..] ==> q.key != obj[0].key) && DistinctKeys(obj[1..]))
  }

  lemma {:induction false} DistinctKeysByIndex<V>(obj: seq<Property<V>>)
    ensures DistinctKeys(obj) <==>
            forall i, j :: 0 <= i < |obj| && 0 <= j < |obj| && i != j ==> obj[i].key != obj[j].key
    decreases |obj|
  {
    if |obj| > 0 {
      DistinctKeysByIndex(obj[1..]);
      if DistinctKeys(obj) {
        forall i, j | 0 <= i < |obj| && 0 <= j < |obj| && i != j
          ensures obj[i].key != obj[j].key
        {
          if i > 0 && j > 0 {
            assert obj[i] == obj[1..][i - 1] && obj[j] == obj[1..][j - 1];
          } else if i == 0 {
            assert obj[j] in obj[1..];
          } else {
            assert obj[i] in obj[1..];
          }
        }
      }
      if forall i, j :: 0 <= i < |obj| && 0 <= j < |obj| && i != j ==> obj[i].key != obj[j].key {
        forall q | q in obj[1..] ensures q.key != obj[0].key {
          var k :| 0 <= k < |obj[1..]| && obj[1..][k] == q;
          assert obj[k + 1] == q;
        }
        forall i, j | 0 <= i < |obj[1..]| && 0 <= j < |obj[1..]| && i != j
          ensures obj[1..][i].key != obj[1..][j].key
        {
          assert obj[1..][i] == obj[i + 1] && obj[1..][j] == obj[j + 1];
        }
      }
    }
  }

  lemma {:induction false} DistinctKeysConcat<V>(a: seq<Property<V>>, b: seq<Property<V>>)
    requires DistinctKeys(a) && DistinctKeys(b)
    requires forall p, q :: p in a && q in b ==> p.key != q.key
    ensures DistinctKeys(a + b)
    decreases |a|
  {
    if |a| > 0 {
      assert (a + b)[1..] == a[1..] + b;
      DistinctKeysConcat(a[1..], b);
    } else {
      assert a + b == b;
    }
  }

  /** The position of the property with key `key`, or -1 when `obj` has none. */
  function Find<V(==)>(obj: seq<Property<V>>, key: string): (i: int)
    ensures -1 <= i < |obj|
    ensures 0 <= i ==> obj[i].key == key
    ensures i == -1 <==> forall q :: q in obj ==> q.key != key
    decreases |obj|
  {
    if |obj| == 0 then -1
    else if obj[0].key == key then 0
    else
      var j := Find(obj[1..], key);
      assert forall q :: q in obj ==> q == obj[0] || q in obj[1..];
      if j == -1 then -1 else j + 1
  }

  /** The properties whose keys are array indices, in creation order. */
  function IndexProperties<V(==)>(obj: seq<Property<V>>): (r: seq<Property<V>>)
    ensures forall q :: q in r ==> q in obj && IsArrayIndex(q.key)
    decreases |obj|
  {
    if |obj| == 0 then []
    else if IsArrayIndex(obj[0].key) then [obj[0]] + IndexProperties(obj[1..])
    else IndexProperties(obj[1..])
  }

  /** The properties whose keys are not array indices, in creation order. */
  function OtherProperties<V(==)>(obj: seq<Property<V>>): (r: seq<Property<V>>)
    ensures forall q :: q in r ==> q in obj && !IsArrayIndex(q.key)
    decreases |obj|
  {
    if |obj| == 0 then []
    else if IsArrayIndex(obj[0].key) then OtherProperties(obj[1..])
    else [obj[0]] + OtherProperties(obj[1..])
  }

  /** Splitting by key kind loses and duplicates no property. */
  lemma {:induction false} PartitionByIndex<V>(obj: seq<Property<V>>)
    ensures multiset(IndexProperties(obj)) + multiset(OtherProperties(obj)) == multiset(obj)
    decreases |obj|
  {
    if |obj| > 0 {
      PartitionByIndex(obj[1..]);
      MultisetOfCons(obj);
    }
  }

  lemma MultisetOfCons<X>(s: seq<X>)
    requires |s| > 0
    ensures multiset(s) == multiset{s[0]} + multiset(s[1..])
  {
    assert s == [s[0]] + s[1..];
  }

  /** Both halves of the split keep distinct keys distinct. */
  lemma {:induction false} PartitionKeepsDistinct<V>(obj: seq<Property<V>>)
    requires DistinctKeys(obj)
    ensures DistinctKeys(IndexProperties(obj)) && DistinctKeys(OtherProperties(obj))
    decreases |obj|
  {
    if |obj| > 0 {
      PartitionKeepsDistinct(obj[1..]);
    }
  }

  lemma {:induction false} OtherPropertiesConcat<V>(a: seq<Property<V>>, b: seq<Property<V>>)
    ensures OtherProperties(a + b) == OtherProperties(a) + OtherProperties(b)
    decreases |a|
  {
    if |a| == 0 {
      assert a + b == b;
    } else {
      assert (a + b)[1..] == a[1..] + b;
      OtherPropertiesConcat(a[1..], b);
    }
  }

  lemma {:induction false} OtherPropertiesSelection<V>(obj: seq<Property<V>>)
    ensures (forall q :: q in obj ==> IsArrayIndex(q.key)) ==> OtherProperties(obj) == []
    ensures (forall q :: q in obj ==> !IsArrayIndex(q.key)) ==> OtherProperties(obj) == obj
    decreases |obj|
  {
    if |obj| > 0 {
      OtherPropertiesSelection(obj[1..]);
      assert forall q :: q in obj[1..] ==> q in obj;
    }
  }

  predicate AllArrayIndices<V(==)>(obj: seq<Property<V>>) {
    forall q :: q in obj ==> IsArrayIndex(q.key)
  }

  predicate StrictlyAscending<V(==)>(obj: seq<Property<V>>)
    requires AllArrayIndices(obj)
  {
    forall i, j :: 0 <= i < j < |obj| ==> IndexValue(obj[i].key) < IndexValue(obj[j].key)
  }

  lemma AscendingCons<V>(x: Property<V>, rest: seq<Property<V>>)
    requires IsArrayIndex(x.key) && AllArrayIndices(rest) && StrictlyAscending(rest)
    requires forall q :: q in rest ==> IndexValue(x.key) < IndexValue(q.key)
    ensures AllArrayIndices([x] + rest) && StrictlyAscending([x] + rest)
  {
    var r := [x] + rest;
    forall i, j | 0 <= i < j < |r| ensures IndexValue(r[i].key) < IndexValue(r[j].key) {
      assert r[j] == rest[j - 1];
      if i > 0 {
        assert r[i] == rest[i - 1];
      } else {
        assert rest[j - 1] in rest;
      }
    }
  }

  lemma AscendingTail<V>(sorted: seq<Property<V>>)
    requires |sorted| > 0 && AllArrayIndices(sorted) && StrictlyAscending(sorted)
    ensures AllArrayIndices(sorted[1..]) && StrictlyAscending(sorted[1..])
    ensures forall q :: q in sorted[1..] ==> IndexValue(sorted[0].key) < IndexValue(q.key)
  {
    forall i, j | 0 <= i < j < |sorted[1..]|
      ensures IndexValue(sorted[1..][i].key) < IndexValue(sorted[1..][j].key)
    {
      assert sorted[1..][i] == sorted[i + 1] && sorted[1..][j] == sorted[j + 1];
    }
    forall q | q in sorted[1..] ensures IndexValue(sorted[0].key) < IndexValue(q.key) {
      var j :| 0 <= j < |sorted[1..]| && sorted[1..][j] == q;
      assert sorted[j + 1] == q;
    }
  }

  /** Places `p` into an ascending run of array-index properties. */
  function InsertAscending<V(==)>(p: Property<V>, sorted: seq<Property<V>>): (r: seq<Property<V>>)
    requires IsArrayIndex(p.key) && AllArrayIndices(sorted) && StrictlyAscending(sorted)
    requires forall q :: q in sorted ==> IndexValue(q.key) != IndexValue(p.key)
    ensures AllArrayIndices(r) && StrictlyAscending(r)
    ensures multiset(r) == multiset(sorted) + multiset{p}
    decreases |sorted|
  {
    if |sorted| == 0 then [p]
    else if IndexValue(p.key) < IndexValue(sorted[0].key) then
      AscendingTail(sorted);
      AscendingCons(p, sorted);
      [p] + sorted
    else
      AscendingTail(sorted);
      var rest := InsertAscending(p, sorted[1..]);
      InsertedAboveHead(p, sorted, rest);
      AscendingCons(sorted[0], rest);
      [sorted[0]] + rest
  }

  /** When `p` goes after the head of `sorted`, every property of the tail with `p`
      inserted lies above the head. */
  lemma InsertedAboveHead<V>(p: Property<V>, sorted: seq<Property<V>>, rest: seq<Property<V>>)
    requires IsArrayIndex(p.key) && |sorted| > 0 && AllArrayIndices(sorted) && StrictlyAscending(sorted)
    requires forall q :: q in sorted ==> IndexValue(q.key) != IndexValue(p.key)
    requires IndexValue(sorted[0].key) <= IndexValue(p.key)
    requires AllArrayIndices(rest) && multiset(rest) == multiset(sorted[1..]) + multiset{p}
    ensures forall q :: q in rest ==> IndexValue(sorted[0].key) < IndexValue(q.key)
    ensures multiset([sorted[0]] + rest) == multiset(sorted) + multiset{p}
  {
    AscendingTail(sorted);
    assert sorted[0] in sorted;
    forall q | q in rest ensures IndexValue(sorted[0].key) < IndexValue(q.key) {
      assert q in multiset(rest);
    }
    MultisetOfCons(sorted);
  }

  /** Sorts array-index properties by ascending numeric key. */
  function SortAscending<V(==)>(obj: seq<Property<V>>): (r: seq<Property<V>>)
    requires AllArrayIndices(obj) && DistinctKeys(obj)
    ensures AllArrayIndices(r) && StrictlyAscending(r)
    ensures multiset(r) == multiset(obj)
    decreases |obj|
  {
    if |obj| == 0 then []
    else
      var rest := SortAscending(obj[1..]);
      RestAvoidsFirstKey(obj, rest);
      MultisetOfCons(obj);
      InsertAscending(obj[0], rest)
  }

  /** A reordering of the tail of a distinct-keyed run of array indices holds no
      property whose index equals the head's. */
  lemma RestAvoidsFirstKey<V>(obj: seq<Property<V>>, rest: seq<Property<V>>)
    requires |obj| > 0 && AllArrayIndices(obj) && DistinctKeys(obj)
    requires AllArrayIndices(rest) && multiset(rest) == multiset(obj[1..])
    ensures forall q :: q in rest ==> IndexValue(q.key) != IndexValue(obj[0].key)
  {
    forall q | q in rest ensures IndexValue(q.key) != IndexValue(obj[0].key) {
      assert q in multiset(rest);
      assert q in obj[1..];
      if IndexValue(q.key) == IndexValue(obj[0].key) {
        CanonicalInjective(q.key, obj[0].key);
      }
    }
  }

  lemma AscendingDistinct<V>(obj: seq<Property<V>>)
    requires AllArrayIndices(obj) && StrictlyAscending(obj)
    ensures DistinctKeys(obj)
  {
    forall i, j | 0 <= i < |obj| && 0 <= j < |obj| && i != j ensures obj[i].key != obj[j].key {
      if i < j {
        assert IndexValue(obj[i].key) < IndexValue(obj[j].key);
      } else {
        assert IndexValue(obj[j].key) < IndexValue(obj[i].key);
      }
    }
    DistinctKeysByIndex(obj);
  }

  /** The order in which `for...in` visits the properties of an ordinary object. */
  function EnumerationOrder<V(==)>(obj: seq<Property<V>>): (r: seq<Property<V>>)
    requires DistinctKeys(obj)
    ensures multiset(r) == multiset(obj)
    ensures DistinctKeys(r)
    ensures forall i, j :: 0 <= i < j < |r| && IsArrayIndex(r[j].key) ==>
              IsArrayIndex(r[i].key) && IndexValue(r[i].key) < IndexValue(r[j].key)
    ensures OtherProperties(r) == OtherProperties(obj)
  {
    PartitionByIndex(obj);
    PartitionKeepsDistinct(obj);
    var indexed := SortAscending(IndexProperties(obj));
    var others := OtherProperties(obj);
    AscendingDistinct(indexed);
    assert forall p :: p in indexed ==> IsArrayIndex(p.key);
    DistinctKeysConcat(indexed, others);
    OtherPropertiesConcat(indexed, others);
    OtherPropertiesSelection(indexed);
    OtherPropertiesSelection(others);
    IndicesFirst(indexed, others);
    indexed + others
  }

  /** An ascending run of array indices followed by other keys puts every array index
      before every later one, in ascending order. */
  lemma IndicesFirst<V>(indexed: seq<Property<V>>, others: seq<Property<V>>)
    requires AllArrayIndices(indexed) && StrictlyAscending(indexed)
    requires forall q :: q in others ==> !IsArrayIndex(q.key)
    ensures var r := indexed + others;
            forall i, j :: 0 <= i < j < |r| && IsArrayIndex(r[j].key) ==>
              IsArrayIndex(r[i].key) && IndexValue(r[i].key) < IndexValue(r[j].key)
  {
    var r := indexed + others;
    forall i, j | 0 <= i < j < |r| && IsArrayIndex(r[j].key)
      ensures IsArrayIndex(r[i].key) && IndexValue(r[i].key) < IndexValue(r[j].key)
    {
      if j < |indexed| {
        assert r[i] == indexed[i] && r[j] == indexed[j];
      } else {
        assert r[j] in others;
      }
    }
  }

  /** Without array-index keys, enumeration follows creation order. */
  lemma EnumerationOrderWithoutIndices<V>(obj: seq<Property<V>>)
    requires DistinctKeys(obj)
    requires forall q :: q in obj ==> !IsArrayIndex(q.key)
    ensures EnumerationOrder(obj) == obj
  {
    var r := EnumerationOrder(obj);
    OtherPropertiesSelection(obj);
    forall q | q in r ensures !IsArrayIndex(q.key) {
      assert q in multiset(r);
    }
    OtherPropertiesSelection(r);
  }

  /** The values of the properties, concatenated in order. */
  function Flatten<T>(obj: seq<Property<seq<T>>>): seq<T>
    decreases |obj|
  {
    if |obj| == 0 then [] else obj[0].value + Flatten(obj[1..])
  }

  lemma {:induction false} FlattenConcat<T>(a: seq<Property<seq<T>>>, b: seq<Property<seq<T>>>)
    ensures Flatten(a + b) == Flatten(a) + Flatten(b)
    decreases |a|
  {
    if |a| == 0 {
      assert a + b == b;
    } else {
      assert (a + b)[1..] == a[1..] + b;
      FlattenConcat(a[1..], b);
    }
  }

  lemma MultisetRemoveAt<X>(a: seq<X>, b: seq<X>, i: nat)
    requires multiset(a) == multiset(b) && |a| > 0 && i < |b| && b[i] == a[0]
    ensures multiset(a[1..]) == multiset(b[..i] + b[i + 1..])
  {
    var x := a[0];
    assert b == b[..i] + [x] + b[i + 1..];
    assert a == [x] + a[1..];
    calc {
      multiset(a[1..]);
      multiset(a) - multiset{x};
      multiset(b) - multiset{x};
      multiset(b[..i]) + multiset(b[i + 1..]);
    }
  }

  lemma FlattenRemoveAt<T>(b: seq<Property<seq<T>>>, i: nat)
    requires i < |b|
    ensures Flatten(b) == Flatten(b[..i]) + (b[i].value + Flatten(b[i + 1..]))
  {
    assert b == b[..i] + b[i..];
    FlattenConcat(b[..i], b[i..]);
    assert b[i..][1..] == b[i + 1..];
  }

  /** Reordering the properties reorders, but keeps, the concatenated values. */
  lemma {:induction false} FlattenPermutation<T>(a: seq<Property<seq<T>>>, b: seq<Property<seq<T>>>)
    requires multiset(a) == multiset(b)
    ensures multiset(Flatten(a)) == multiset(Flatten(b))
    decreases |a|
  {
    if |a| == 0 {
      assert |multiset(b)| == 0;
    } else {
      assert a[0] in multiset(b);
      var i :| 0 <= i < |b| && b[i] == a[0];
      MultisetRemoveAt(a, b, i);
      FlattenPermutation(a[1..], b[..i] + b[i + 1..]);
      FlattenRemoveAt(b, i);
      FlattenConcat(b[..i], b[i + 1..]);
      var p, m, q := Flatten(b[..i]), a[0].value, Flatten(b[i + 1..]);
      calc {
        multiset(Flatten(a));
        multiset(m) + multiset(Flatten(a[1..]));
        multiset(m) + multiset(p + q);
        multiset(p + m + q);
      }
    }
  }
}

=== FILE: registration.dfy ===
/** The unit-registration handler (`registerUnits`).

    The handler groups the requested units by semester in a plain object,
    visits the groups in the object's enumeration order, and for each group
    first compares the student's existing count for that semester plus the
    group size with the limit of 4, then inserts the group's units one by
    one, refusing a unit that is already registered for that student and
    semester. The first refusal ends the request; rows inserted before it
    stay in the store. */
module Registration {
  import opened Decimal
  import opened JsObject
  import opened Store

  /** One element of the request body's `units` array. */
  datatype UnitRequest = UnitRequest(unitCode: string, semester: string, programYear: int)

  /** The request body: `{ student_id, units }`. */
  datatype RegistrationRequest = RegistrationRequest(studentId: string, units: seq<UnitRequest>)

  /** Why a batch stopped; both are answered with status 400. */
  datatype Rejection =
    | CapacityExceeded(semester: string, existing: nat)
    | AlreadyRegistered(unitCode: string, semester: string)

  const MaxUnitsPerSemester: nat := 4

  const SuccessMessage: string := "Units registered successfully!"

  const CapacityLead: string := "You can only register for up to 4 units in "
  const CapacityMid: string := ". You already have "
  const CapacityTail: string := " units."
  const DuplicateLead: string := "Unit "
  const DuplicateMid: string := " has already been registered for "
  const DuplicateTail: string := "."

  /** `m` is `p + q + r + s + t`, with each piece readable again at its offset. */
  predicate Pieces(m: string, p: string, q: string, r: string, s: string, t: string) {
    && |m| == |p| + |q| + |r| + |s| + |t|
    && m[..|p|] == p && m[|p|..|p| + |q|] == q && m[|p| + |q|..|p| + |q| + |r|] == r
    && m[|p| + |q| + |r|..|p| + |q| + |r| + |s|] == s && m[|p| + |q| + |r| + |s|..] == t
  }

  /** The error text of a 400 answer. A reader can take it apart again: the fixed pieces
      sit where they belong, and the semester, the unit code and the printed count can be
      read off between them (`ParseDecimalOfDecimalString` turns the count back into the
      number of existing rows). */
  function Message(r: Rejection): (m: string)
    ensures r.CapacityExceeded? ==>
              Pieces(m, CapacityLead, r.semester, CapacityMid, DecimalString(r.existing), CapacityTail)
    ensures r.AlreadyRegistered? ==>
              Pieces(m, DuplicateLead, r.unitCode, DuplicateMid, r.semester, DuplicateTail)
  {
    match r
    case CapacityExceeded(semester, existing) =>
      Concat5(CapacityLead, semester, CapacityMid, DecimalString(existing), CapacityTail)
    case AlreadyRegistered(unitCode, semester) =>
      Concat5(DuplicateLead, unitCode, DuplicateMid, semester, DuplicateTail)
  }

  /** The count printed in a capacity refusal reads back as the number of existing rows. */
  lemma MessageCountReadsBack(semester: string, existing: nat)
    ensures var m := Message(CapacityExceeded(semester, existing));
            var c := |CapacityLead| + |semester| + |CapacityMid|;
            c + |DecimalString(existing)| <= |m|
            && ParseDecimal(m[c..c + |DecimalString(existing)|]) == existing
  {
    ParseDecimalOfDecimalString(existing);
  }

  function Concat5(p: string, q: string, r: string, s: string, t: string): (m: string)
    ensures Pieces(m, p, q, r, s, t)
  {
    var m := p + q + r + s + t;
    assert m[..|p|] == p;
    assert m[|p|..|p| + |q|] == q;
    assert m[|p| + |q|..|p| + |q| + |r|] == r;
    assert m[|p| + |q| + |r|..|p| + |q| + |r| + |s|] == s;
    assert m[|p| + |q| + |r| + |s|..] == t;
    m
  }

  /** A property of the `semesters` object: a semester and the units requested for it. */
  type Group = Property<seq<UnitRequest>>

  /** The row the handler inserts for one requested unit. */
  function RowOf(sid: string, u: UnitRequest): RegisteredUnit {
    RegisteredUnit(sid, u.unitCode, u.semester, u.programYear)
  }

  function RowsOf(sid: string, us: seq<UnitRequest>): seq<RegisteredUnit> {
    seq(|us|, i requires 0 <= i < |us| => RowOf(sid, us[i]))
  }

  lemma RowsOfConcat(sid: string, a: seq<UnitRequest>, b: seq<UnitRequest>)
    ensures RowsOf(sid, a + b) == RowsOf(sid, a) + RowsOf(sid, b)
  {
    assert forall i :: 0 <= i < |a + b| ==> RowsOf(sid, a + b)[i] == (RowsOf(sid, a) + RowsOf(sid, b))[i];
  }

  /** Adding the rows of `us`, all for semester `semester`, raises only the count of
      (`sid`, `semester`), and raises it by `|us|`. */
  lemma {:induction false} SemesterCountRowsOf(regs: seq<RegisteredUnit>, sid: string, us: seq<UnitRequest>, semester: string, s: string, k: string)
    requires forall u :: u in us ==> u.semester == semester
    ensures SemesterCount(regs + RowsOf(sid, us), s, k)
            == SemesterCount(regs, s, k) + (if s == sid && k == semester then |us| else 0)
  {
    SemesterCountConcat(regs, RowsOf(sid, us), s, k);
    SemesterCountOfRows(sid, us, semester, s, k);
  }

  lemma {:induction false} SemesterCountOfRows(sid: string, us: seq<UnitRequest>, semester: string, s: string, k: string)
    requires forall u :: u in us ==> u.semester == semester
    ensures SemesterCount(RowsOf(sid, us), s, k) == (if s == sid && k == semester then |us| else 0)
    decreases |us|
  {
    if |us| > 0 {
      var rows := RowsOf(sid, us);
      assert rows[1..] == RowsOf(sid, us[1..]);
      assert rows[0] == RowOf(sid, us[0]) && us[0] in us;
      assert forall u :: u in us[1..] ==> u in us;
      SemesterCountOfRows(sid, us[1..], semester, s, k);
    }
  }

  /** After adding the rows of `us`, a slot is taken exactly when it was taken before or
      some unit of `us` names it. */
  lemma IsRegisteredRowsOf(regs: seq<RegisteredUnit>, sid: string, us: seq<UnitRequest>, s: string, code: string, k: string)
    ensures IsRegistered(regs + RowsOf(sid, us), s, code, k)
            <==> IsRegistered(regs, s, code, k) || (s == sid && exists u :: u in us && u.unitCode == code && u.semester == k)
  {
    var rows := RowsOf(sid, us);
    if s == sid && exists u :: u in us && u.unitCode == code && u.semester == k {
      var u :| u in us && u.unitCode == code && u.semester == k;
      var i :| 0 <= i < |us| && us[i] == u;
      assert rows[i] in regs + rows;
    }
    if IsRegistered(regs + rows, s, code, k) {
      var r :| r in regs + rows && r.student == s && r.unitCode == code && r.semester == k;
      if r !in regs {
        var i :| 0 <= i < |rows| && rows[i] == r;
        assert us[i] in us;
      }
    }
  }

  // ----- Grouping: the first loop of the handler -----

  /** The requested units for `semester`, in request order. */
  function WithSemester(units: seq<UnitRequest>, semester: string): (r: seq<UnitRequest>)
    ensures forall u :: u in r <==> u in units && u.semester == semester
    decreases |units|
  {
    if |units| == 0 then []
    else
      assert forall u :: u in units <==> u == units[0] || u in units[1..];
      if units[0].semester == semester then [units[0]] + WithSemester(units[1..], semester)
      else WithSemester(units[1..], semester)
  }

  lemma {:induction false} WithSemesterConcat(a: seq<UnitRequest>, b: seq<UnitRequest>, semester: string)
    ensures WithSemester(a + b, semester) == WithSemester(a, semester) + WithSemester(b, semester)
    decreases |a|
  {
    if |a| == 0 {
      assert a + b == b;
    } else {
      assert (a + b)[1..] == a[1..] + b;
      WithSemesterConcat(a[1..], b, semester);
    }
  }

  lemma {:induction false} WithSemesterNone(units: seq<UnitRequest>, semester: string)
    requires forall u :: u in units ==> u.semester != semester
    ensures WithSemester(units, semester) == []
    decreases |units|
  {
    if |units| > 0 {
      assert units[0] in units;
      assert forall u :: u in units[1..] ==> u in units;
      WithSemesterNone(units[1..], semester);
    }
  }

  /** What the grouping loop has built after reading `units`: one property per distinct
      semester, holding that semester's units in request order. */
  ghost predicate IsGrouping(groups: seq<Group>, units: seq<UnitRequest>) {
    && DistinctKeys(groups)
    && (forall g :: g in groups ==> g.value == WithSemester(units, g.key) && g.value != [])
    && (forall u :: u in units ==> exists g :: g in groups && g.key == u.semester)
    && multiset(Flatten(groups)) == multiset(units)
  }

  /** One step of the grouping loop: create the semester's array when absent, then push. */
  function AddToGroup(groups: seq<Group>, u: UnitRequest): seq<Group> {
    var i := Find(groups, u.semester);
    if i < 0 then groups + [Property(u.semester, [u])]
    else groups[i := Property(u.semester, groups[i].value + [u])]
  }

  lemma AddToGroupFresh(groups: seq<Group>, units: seq<UnitRequest>, u: UnitRequest)
    requires IsGrouping(groups, units) && Find(groups, u.semester) < 0
    ensures IsGrouping(AddToGroup(groups, u), units + [u])
  {
    var k := u.semester;
    var p: Group := Property(k, [u]);
    var r := groups + [p];
    assert AddToGroup(groups, u) == r;
    assert DistinctKeys([p]) by {
      assert [p][1..] == [];
    }
    DistinctKeysConcat(groups, [p]);
    assert WithSemester([u], k) == [u] by {
      assert [u][1..] == [];
    }
    forall g | g in r
      ensures g.value == WithSemester(units + [u], g.key) && g.value != []
    {
      WithSemesterConcat(units, [u], g.key);
      assert [u][1..] == [];
      if g == p {
        forall v | v in units ensures v.semester != k {
          var h :| h in groups && h.key == v.semester;
        }
        WithSemesterNone(units, k);
      } else {
        assert g in groups;
      }
    }
    forall v | v in units + [u] ensures exists g :: g in r && g.key == v.semester {
      if v == u {
        assert p in r;
      } else {
        var g :| g in groups && g.key == v.semester;
        assert g in r;
      }
    }
    FlattenConcat(groups, [p]);
    assert Flatten([p]) == [u] by {
      assert [p][1..] == [];
    }
  }

  lemma AddToGroupExisting(groups: seq<Group>, units: seq<UnitRequest>, u: UnitRequest)
    requires IsGrouping(groups, units) && Find(groups, u.semester) >= 0
    ensures IsGrouping(AddToGroup(groups, u), units + [u])
  {
    var k := u.semester;
    var i := Find(groups, k);
    var p: Group := Property(k, groups[i].value + [u]);
    var r := groups[i := p];
    assert AddToGroup(groups, u) == r;
    assert DistinctKeys(r) by {
      DistinctKeysByIndex(groups);
      DistinctKeysByIndex(r);
    }
    assert forall g :: g in r ==> g.value == WithSemester(units + [u], g.key) && g.value != [] by {
      DistinctKeysByIndex(groups);
      ExistingGroupValues(groups, units, u, i);
    }
    ExistingGroupCovers(groups, units, u, i);
    ExistingGroupFlatten(groups, units, u, i);
  }

  lemma ExistingGroupCovers(groups: seq<Group>, units: seq<UnitRequest>, u: UnitRequest, i: nat)
    requires i < |groups| && groups[i].key == u.semester
    requires forall v :: v in units ==> exists g :: g in groups && g.key == v.semester
    ensures forall v :: v in units + [u] ==>
              exists g :: g in groups[i := Property(u.semester, groups[i].value + [u])] && g.key == v.semester
  {
    var r := groups[i := Property(u.semester, groups[i].value + [u])];
    forall v | v in units + [u] ensures exists g :: g in r && g.key == v.semester {
      if v == u {
        assert r[i] in r;
      } else {
        var g :| g in groups && g.key == v.semester;
        var j :| 0 <= j < |groups| && groups[j] == g;
        assert r[j] in r && r[j].key == g.key;
      }
    }
  }

  lemma ExistingGroupFlatten(groups: seq<Group>, units: seq<UnitRequest>, u: UnitRequest, i: nat)
    requires i < |groups|
    requires multiset(Flatten(groups)) == multiset(units)
    ensures multiset(Flatten(groups[i := Property(u.semester, groups[i].value + [u])])) == multiset(units + [u])
  {
    var r := groups[i := Property(u.semester, groups[i].value + [u])];
    FlattenRemoveAt(groups, i);
    FlattenRemoveAt(r, i);
    assert r[..i] == groups[..i] && r[i + 1..] == groups[i + 1..];
  }

  lemma ExistingGroupValues(groups: seq<Group>, units: seq<UnitRequest>, u: UnitRequest, i: nat)
    requires i < |groups| && groups[i].key == u.semester
    requires forall a, b :: 0 <= a < |groups| && 0 <= b < |groups| && a != b ==> groups[a].key != groups[b].key
    requires forall g :: g in groups ==> g.value == WithSemester(units, g.key) && g.value != []
    ensures forall g :: g in groups[i := Property(u.semester, groups[i].value + [u])] ==>
              g.value == WithSemester(units + [u], g.key) && g.value != []
  {
    var r := groups[i := Property(u.semester, groups[i].value + [u])];
    assert groups[i] in groups;
    forall g | g in r
      ensures g.value == WithSemester(units + [u], g.key) && g.value != []
    {
      WithSemesterConcat(units, [u], g.key);
      assert [u][1..] == [];
      var j :| 0 <= j < |r| && r[j] == g;
      if j != i {
        assert g == groups[j] && groups[j] in groups;
      }
    }
  }

  lemma SplitLast<X>(s: seq<X>)
    requires |s| > 0
    ensures s == s[..|s| - 1] + [s[|s| - 1]]
  {
  }

  /** The `semesters` object after the grouping loop, properties in creation order. */
  function GroupBySemester(units: seq<UnitRequest>): (groups: seq<Group>)
    ensures IsGrouping(groups, units)
    decreases |units|
  {
    if |units| == 0 then []
    else
      var init, last := units[..|units| - 1], units[|units| - 1];
      var prev := GroupBySemester(init);
      SplitLast(units);
      if Find(prev, last.semester) < 0 then
        AddToGroupFresh(prev, init, last);
        AddToGroup(prev, last)
      else
        AddToGroupExisting(prev, init, last);
        AddToGroup(prev, last)
  }

  /** Position of the first requested unit for `semester`; `|units|` when there is none. */
  function FirstWith(units: seq<UnitRequest>, semester: string): nat
    decreases |units|
  {
    if |units| == 0 then 0
    else if units[0].semester == semester then 0
    else 1 + FirstWith(units[1..], semester)
  }

  lemma {:induction false} FirstWithSnoc(units: seq<UnitRequest>, u: UnitRequest, semester: string)
    ensures FirstWith(units, semester) <= |units|
    ensures FirstWith(units, semester) < |units| <==> exists v :: v in units && v.semester == semester
    ensures FirstWith(units + [u], semester)
            == if FirstWith(units, semester) < |units| || u.semester == semester then FirstWith(units, semester) else |units| + 1
    decreases |units|
  {
    if |units| == 0 {
      assert [] + [u] == [u];
    } else {
      assert (units + [u])[1..] == units[1..] + [u];
      assert forall v :: v in units <==> v == units[0] || v in units[1..];
      FirstWithSnoc(units[1..], u, semester);
    }
  }

  /** Properties are created in the order of each semester's first occurrence in the request. */
  lemma {:induction false} GroupOrderIsFirstOccurrence(units: seq<UnitRequest>)
    ensures forall i, j :: 0 <= i < j < |GroupBySemester(units)| ==>
              FirstWith(units, GroupBySemester(units)[i].key) < FirstWith(units, GroupBySemester(units)[j].key)
    decreases |units|
  {
    if |units| > 0 {
      var init, last := units[..|units| - 1], units[|units| - 1];
      var prev := GroupBySemester(init);
      SplitLast(units);
      GroupOrderIsFirstOccurrence(init);
      assert GroupBySemester(units) == AddToGroup(prev, last);
      AddToGroupKeepsOrder(prev, init, last);
    }
  }

  lemma AddToGroupKeepsOrder(prev: seq<Group>, init: seq<UnitRequest>, last: UnitRequest)
    requires IsGrouping(prev, init)
    requires forall i, j :: 0 <= i < j < |prev| ==> FirstWith(init, prev[i].key) < FirstWith(init, prev[j].key)
    ensures var groups := AddToGroup(prev, last);
            forall i, j :: 0 <= i < j < |groups| ==>
              FirstWith(init + [last], groups[i].key) < FirstWith(init + [last], groups[j].key)
  {
    var units := init + [last];
    var groups := AddToGroup(prev, last);
    assert forall g :: g in prev ==> FirstWith(units, g.key) == FirstWith(init, g.key) < |init| by {
      forall g | g in prev ensures FirstWith(units, g.key) == FirstWith(init, g.key) < |init| {
        var v := g.value[0];
        assert v in WithSemester(init, g.key);
        FirstWithSnoc(init, last, g.key);
      }
    }
    if Find(prev, last.semester) < 0 {
      FirstWithSnoc(init, last, last.semester);
      forall i, j | 0 <= i < j < |groups|
        ensures FirstWith(units, groups[i].key) < FirstWith(units, groups[j].key)
      {
        assert groups[i] == prev[i] && prev[i] in prev;
        if j < |prev| {
          assert groups[j] == prev[j] && prev[j] in prev;
        }
      }
    } else {
      forall i, j | 0 <= i < j < |groups|
        ensures FirstWith(units, groups[i].key) < FirstWith(units, groups[j].key)
      {
        assert groups[i].key == prev[i].key && prev[i] in prev;
        assert groups[j].key == prev[j].key && prev[j] in prev;
      }
    }
  }

  /** The groups in the order the handler's `for...in` loop visits them. */
  function Groups(units: seq<UnitRequest>): (gs: seq<Group>)
    ensures IsGrouping(gs, units)
    ensures forall i, j :: 0 <= i < j < |gs| && IsArrayIndex(gs[j].key) ==>
              IsArrayIndex(gs[i].key) && IndexValue(gs[i].key) < IndexValue(gs[j].key)
    ensures OtherProperties(gs) == OtherProperties(GroupBySemester(units))
  {
    var created := GroupBySemester(units);
    var gs := EnumerationOrder(created);
    assert forall g :: g in gs <==> g in created by {
      forall g ensures g in gs <==> g in created {
        assert g in gs <==> g in multiset(gs);
        assert g in created <==> g in multiset(created);
      }
    }
    FlattenPermutation(gs, created);
    gs
  }

  lemma GroupsSize(units: seq<UnitRequest>)
    ensures |Flatten(Groups(units))| == |units|
    ensures units == [] ==> Groups(units) == []
  {
    var gs := Groups(units);
    assert |multiset(Flatten(gs))| == |multiset(units)|;
    FlattenCoversGroups(gs);
  }

  lemma {:induction false} FlattenCoversGroups<T>(gs: seq<Property<seq<T>>>)
    requires forall g :: g in gs ==> g.value != []
    ensures |gs| <= |Flatten(gs)|
    decreases |gs|
  {
    if |gs| > 0 {
      assert gs[0] in gs;
      assert forall g :: g in gs[1..] ==> g in gs;
      FlattenCoversGroups(gs[1..]);
    }
  }

  // ----- Inserting: the second loop of the handler -----

  /** `out` is `regs` followed by the rows of the first few units of `us`. */
  predicate AddsPrefix(regs: seq<RegisteredUnit>, sid: string, us: seq<UnitRequest>, out: seq<RegisteredUnit>) {
    |regs| <= |out| <= |regs| + |us| && out == regs + RowsOf(sid, us[..|out| - |regs|])
  }

  /** Each of the first `n` units of `us` had no (student, unit code, semester) row when
      it was checked, counting the rows of the units inserted before it. */
  predicate CheckedFresh(regs: seq<RegisteredUnit>, sid: string, us: seq<UnitRequest>, n: nat) {
    forall k :: 0 <= k < n && k < |us| ==>
      !IsRegistered(regs + RowsOf(sid, us[..k]), sid, us[k].unitCode, us[k].semester)
  }

  /** The inner loop over one semester group: check for a duplicate, then insert, unit by
      unit; `semester` is the group's key, which the refusal message names. */
  function InsertGroup(regs: seq<RegisteredUnit>, sid: string, semester: string, us: seq<UnitRequest>)
    : (out: (seq<RegisteredUnit>, Option<Rejection>))
    ensures InsertOutcome(regs, sid, semester, us, out)
    decreases |us|
  {
    if |us| == 0 then (regs, None)
    else if IsRegistered(regs, sid, us[0].unitCode, us[0].semester) then
      assert us[..0] == [];
      assert RowsOf(sid, []) == [];
      (regs, Some(AlreadyRegistered(us[0].unitCode, semester)))
    else
      var next := regs + [RowOf(sid, us[0])];
      var rest := InsertGroup(next, sid, semester, us[1..]);
      InsertOutcomeAfterFirst(regs, sid, semester, us, rest);
      rest
  }

  /** What the inner loop over `us` leaves behind: the rows of a prefix of `us` appended
      to `regs`; completion exactly when that prefix is all of `us`; on a refusal, the
      first unit not inserted, named with the group's key, whose row is already present;
      and every inserted unit unregistered when it was checked. */
  predicate InsertOutcome(regs: seq<RegisteredUnit>, sid: string, semester: string, us: seq<UnitRequest>,
                          out: (seq<RegisteredUnit>, Option<Rejection>)) {
    && AddsPrefix(regs, sid, us, out.0)
    && (out.1.None? <==> |out.0| == |regs| + |us|)
    && (out.1.Some? ==>
          var m := |out.0| - |regs|;
          && out.1.value == AlreadyRegistered(us[m].unitCode, semester)
          && IsRegistered(out.0, sid, us[m].unitCode, us[m].semester))
    && CheckedFresh(regs, sid, us, |out.0| - |regs|)
  }

  lemma InsertOutcomeAfterFirst(regs: seq<RegisteredUnit>, sid: string, semester: string, us: seq<UnitRequest>,
                                out: (seq<RegisteredUnit>, Option<Rejection>))
    requires |us| > 0 && !IsRegistered(regs, sid, us[0].unitCode, us[0].semester)
    requires InsertOutcome(regs + [RowOf(sid, us[0])], sid, semester, us[1..], out)
    ensures InsertOutcome(regs, sid, semester, us, out)
  {
    InsertedAfterFirst(regs, sid, us, out.0);
    CheckedAfterFirst(regs, sid, us, out.0);
  }

  lemma CheckedAfterFirst(regs: seq<RegisteredUnit>, sid: string, us: seq<UnitRequest>, out: seq<RegisteredUnit>)
    requires |us| > 0 && !IsRegistered(regs, sid, us[0].unitCode, us[0].semester)
    requires |regs| < |out|
    requires CheckedFresh(regs + [RowOf(sid, us[0])], sid, us[1..], |out| - |regs| - 1)
    ensures CheckedFresh(regs, sid, us, |out| - |regs|)
  {
    var n := |out| - |regs| - 1;
    forall k | 0 <= k < n + 1 && k < |us|
      ensures !IsRegistered(regs + RowsOf(sid, us[..k]), sid, us[k].unitCode, us[k].semester)
    {
      if k == 0 {
        assert regs + RowsOf(sid, us[..k]) == regs;
      } else {
        assert us[..k] == [us[0]] + us[1..][..k - 1];
        RowsOfConcat(sid, [us[0]], us[1..][..k - 1]);
        assert regs + RowsOf(sid, us[..k]) == regs + [RowOf(sid, us[0])] + RowsOf(sid, us[1..][..k - 1]);
        assert us[k] == us[1..][k - 1];
      }
    }
  }

  lemma InsertedAfterFirst(regs: seq<RegisteredUnit>, sid: string, us: seq<UnitRequest>, out: seq<RegisteredUnit>)
    requires |us| > 0
    requires AddsPrefix(regs + [RowOf(sid, us[0])], sid, us[1..], out)
    ensures AddsPrefix(regs, sid, us, out)
    ensures |out| < |regs| + |us| ==> us[|out| - |regs|] == us[1..][|out| - |regs| - 1]
  {
    var m := |out| - |regs| - 1;
    assert us[..m + 1] == [us[0]] + us[1..][..m];
    RowsOfConcat(sid, [us[0]], us[1..][..m]);
    assert RowsOf(sid, [us[0]]) == [RowOf(sid, us[0])];
  }

  lemma FlattenCons<T>(gs: seq<Property<seq<T>>>, k: nat)
    requires |gs| > 0 && k <= |Flatten(gs[1..])|
    ensures Flatten(gs) == gs[0].value + Flatten(gs[1..])
    ensures Flatten(gs)[..|gs[0].value| + k] == gs[0].value + Flatten(gs[1..])[..k]
    ensures forall m :: 0 <= m <= |gs[0].value| ==> Flatten(gs)[..m] == gs[0].value[..m]
  {
  }

  lemma StopInFirstGroup(regs: seq<RegisteredUnit>, sid: string, gs: seq<Group>, out: seq<RegisteredUnit>)
    requires |gs| > 0 && AddsPrefix(regs, sid, gs[0].value, out)
    ensures AddsPrefix(regs, sid, Flatten(gs), out)
  {
    FlattenCons(gs, 0);
  }

  lemma ContinueAfterFirstGroup(regs: seq<RegisteredUnit>, sid: string, gs: seq<Group>, mid: seq<RegisteredUnit>, out: seq<RegisteredUnit>)
    requires |gs| > 0 && mid == regs + RowsOf(sid, gs[0].value)
    requires AddsPrefix(mid, sid, Flatten(gs[1..]), out)
    ensures AddsPrefix(regs, sid, Flatten(gs), out)
  {
    var k := |out| - |mid|;
    FlattenCons(gs, k);
    RowsOfConcat(sid, gs[0].value, Flatten(gs[1..])[..k]);
  }

  /** The outer loop over the semester groups, in visiting order. */
  function RunGroups(regs: seq<RegisteredUnit>, sid: string, gs: seq<Group>)
    : (out: (seq<RegisteredUnit>, Option<Rejection>))
    ensures AddsPrefix(regs, sid, Flatten(gs), out.0)
    ensures out.1.None? ==> |out.0| == |regs| + |Flatten(gs)|
    ensures out.1.Some? ==> exists g :: g in gs && g.key == out.1.value.semester
    decreases |gs|
  {
    if |gs| == 0 then
      assert RowsOf(sid, []) == [];
      (regs, None)
    else
      var g := gs[0];
      var existing := SemesterCount(regs, sid, g.key);
      if existing + |g.value| > MaxUnitsPerSemester then
        StopInFirstGroup(regs, sid, gs, regs);
        (regs, Some(CapacityExceeded(g.key, existing)))
      else
        var inserted := InsertGroup(regs, sid, g.key, g.value);
        if inserted.1.Some? then
          StopInFirstGroup(regs, sid, gs, inserted.0);
          inserted
        else
          assert g.value[..|g.value|] == g.value;
          var rest := RunGroups(inserted.0, sid, gs[1..]);
          ContinueAfterFirstGroup(regs, sid, gs, inserted.0, rest.0);
          assert forall x :: x in gs[1..] ==> x in gs;
          rest
  }

  lemma RowsOfStudent(sid: string, us: seq<UnitRequest>)
    ensures forall r :: r in RowsOf(sid, us) ==> r.student == sid
  {
  }

  /** Rows added by a prefix run extend the table and all belong to the student. */
  lemma AddedRowsOfStudent(regs: seq<RegisteredUnit>, sid: string, us: seq<UnitRequest>, out: seq<RegisteredUnit>)
    requires AddsPrefix(regs, sid, us, out)
    ensures regs <= out
    ensures forall r :: r in out[|regs|..] ==> r.student == sid
  {
    var added := us[..|out| - |regs|];
    assert out[|regs|..] == RowsOf(sid, added);
    RowsOfStudent(sid, added);
  }

  /** `registerUnits`: the store after the request and the reply. */
  function RegisterUnits(st: Store, req: RegistrationRequest): (out: (Store, Reply<string>))
    ensures out.0 == st.(registered := out.0.registered)
    ensures st.registered <= out.0.registered
    ensures forall r :: r in out.0.registered[|st.registered|..] ==> r.student == req.studentId
    ensures out.1.Ok? ==> out.1.value == SuccessMessage && |out.0.registered| == |st.registered| + |req.units|
    ensures out.1.Err? ==> out.1.status == 400
    ensures req.units == [] ==> out == (st, Ok(SuccessMessage))
  {
    var gs := Groups(req.units);
    var run := RunGroups(st.registered, req.studentId, gs);
    GroupsSize(req.units);
    AddedRowsOfStudent(st.registered, req.studentId, Flatten(gs), run.0);
    var reply := if run.1.None? then Ok(SuccessMessage) else Err(400, Message(run.1.value));
    (st.(registered := run.0), reply)
  }
}

/** Properties of the registration handler. */
module RegistrationProperties {
  import opened JsObject
  import opened Store
  import opened Registration

  /** Visiting `a + b` is visiting `a`, then, unless `a` was refused, visiting `b` on the
      store `a` left behind: the first refusal ends the request and nothing later runs. */
  lemma {:induction false} RunGroupsSequential(regs: seq<RegisteredUnit>, sid: string, a: seq<Group>, b: seq<Group>)
    ensures RunGroups(regs, sid, a + b)
            == (var first := RunGroups(regs, sid, a);
                if first.1.Some? then first else RunGroups(first.0, sid, b))
    decreases |a|
  {
    if |a| == 0 {
      assert a + b == b;
    } else {
      assert (a + b)[0] == a[0] && (a + b)[1..] == a[1..] + b;
      var g := a[0];
      if SemesterCount(regs, sid, g.key) + |g.value| <= MaxUnitsPerSemester {
        var inserted := InsertGroup(regs, sid, g.key, g.value);
        if inserted.1.None? {
          RunGroupsSequential(inserted.0, sid, a[1..], b);
        }
      }
    }
  }

  /** A group is refused for capacity, naming its semester and the count taken before any of
      its inserts, exactly when that count plus the group size exceeds 4; the refusal
      leaves the store as the group found it. */
  lemma CapacityRejection(regs: seq<RegisteredUnit>, sid: string, g: Group, rest: seq<Group>)
    requires DistinctKeys([g] + rest)
    ensures var out := RunGroups(regs, sid, [g] + rest);
            var existing := SemesterCount(regs, sid, g.key);
            && (out.1 == Some(CapacityExceeded(g.key, existing)) <==> existing + |g.value| > MaxUnitsPerSemester)
            && (existing + |g.value| > MaxUnitsPerSemester ==> out.0 == regs)
  {
    var gs := [g] + rest;
    assert gs[0] == g && gs[1..] == rest;
    var existing := SemesterCount(regs, sid, g.key);
    if existing + |g.value| <= MaxUnitsPerSemester {
      var inserted := InsertGroup(regs, sid, g.key, g.value);
      if inserted.1.None? {
        var out := RunGroups(inserted.0, sid, rest);
        if out.1.Some? {
          var h :| h in rest && h.key == out.1.value.semester;
          assert h.key != g.key;
        }
      }
    }
  }

  /** Two requests in one batch that name the same unit and semester. */
  predicate SameSlot(a: UnitRequest, b: UnitRequest) {
    a.unitCode == b.unitCode && a.semester == b.semester
  }

  predicate NoRepeatedRequests(us: seq<UnitRequest>)
    decreases |us|
  {
    |us| == 0 || ((forall v :: v in us[1..] ==> !SameSlot(v, us[0])) && NoRepeatedRequests(us[1..]))
  }

  /** A group is inserted in full exactly when none of its units is registered already and
      no unit appears twice in it; a unit inserted earlier in the batch counts as
      registered. */
  lemma {:induction false} InsertGroupSucceeds(regs: seq<RegisteredUnit>, sid: string, semester: string, us: seq<UnitRequest>)
    ensures InsertGroup(regs, sid, semester, us).1.None?
            <==> NoRepeatedRequests(us) && forall u :: u in us ==> !IsRegistered(regs, sid, u.unitCode, u.semester)
    decreases |us|
  {
    if |us| > 0 {
      var u := us[0];
      assert forall v :: v in us <==> v == u || v in us[1..];
      if !IsRegistered(regs, sid, u.unitCode, u.semester) {
        var next := regs + [RowOf(sid, u)];
        InsertGroupSucceeds(next, sid, semester, us[1..]);
        forall v | v in us[1..]
          ensures IsRegistered(next, sid, v.unitCode, v.semester)
                  <==> IsRegistered(regs, sid, v.unitCode, v.semester) || SameSlot(v, u)
        {
          if SameSlot(v, u) {
            assert RowOf(sid, u) in next;
          }
        }
      }
    }
  }

  lemma {:induction false} WithSemesterAll(units: seq<UnitRequest>, semester: string)
    requires forall u :: u in units ==> u.semester == semester
    ensures WithSemester(units, semester) == units
    decreases |units|
  {
    if |units| > 0 {
      assert units[0] in units;
      assert forall u :: u in units[1..] ==> u in units;
      WithSemesterAll(units[1..], semester);
    }
  }

  /** Every group key is the semester of some requested unit, and every group holds exactly
      the units of its semester. */
  lemma GroupsShape(units: seq<UnitRequest>)
    ensures DistinctKeys(Groups(units))
    ensures forall g :: g in Groups(units) ==> g.value == WithSemester(units, g.key)
    ensures forall g :: g in Groups(units) ==> exists u :: u in units && u.semester == g.key
    ensures forall u :: u in units ==> exists g :: g in Groups(units) && g.key == u.semester
  {
    var gs := Groups(units);
    assert IsGrouping(gs, units);
    forall g | g in gs ensures exists u :: u in units && u.semester == g.key {
      assert g.value[0] in WithSemester(units, g.key);
    }
  }

  /** Properties with distinct keys drawn from `keys` number at most `|keys|`. */
  lemma {:induction false} DistinctKeysBound(gs: seq<Group>, keys: set<string>)
    requires DistinctKeys(gs) && forall g :: g in gs ==> g.key in keys
    ensures |gs| <= |keys|
    decreases |gs|
  {
    if |gs| > 0 {
      assert forall g :: g in gs[1..] ==> g in gs && g.key != gs[0].key;
      assert gs[0] in gs;
      DistinctKeysBound(gs[1..], keys - {gs[0].key});
    }
  }

  lemma OneGroup(gs: seq<Group>, units: seq<UnitRequest>, semester: string)
    requires DistinctKeys(gs)
    requires forall g :: g in gs ==> g.key == semester
    requires exists g :: g in gs && g.key == semester
    requires forall g :: g in gs ==> g.value == WithSemester(units, g.key)
    ensures gs == [Property(semester, WithSemester(units, semester))]
  {
    DistinctKeysBound(gs, {semester});
    assert gs[0] in gs;
  }

  /** A request for a single semester is visited as one group holding the whole request. */
  lemma SingleSemesterGroups(units: seq<UnitRequest>, semester: string)
    requires units != [] && forall u :: u in units ==> u.semester == semester
    ensures Groups(units) == [Property(semester, units)]
  {
    assert units[0] in units;
    GroupsCover(units, semester);
    GroupsKeysWithin(units, semester, semester);
    GroupsShape(units);
    OneGroup(Groups(units), units, semester);
    WithSemesterAll(units, semester);
  }

  lemma TwoKeys(gs: seq<Group>, low: string, high: string)
    requires DistinctKeys(gs) && low != high
    requires forall g :: g in gs ==> g.key == low || g.key == high
    requires (exists g :: g in gs && g.key == low) && (exists g :: g in gs && g.key == high)
    ensures |gs| == 2
    ensures (gs[0].key == low && gs[1].key == high) || (gs[0].key == high && gs[1].key == low)
  {
    DistinctKeysBound(gs, {low, high});
    var gl :| gl in gs && gl.key == low;
    var gh :| gh in gs && gh.key == high;
    var i :| 0 <= i < |gs| && gs[i] == gl;
    var j :| 0 <= j < |gs| && gs[j] == gh;
    assert i != j;
    DistinctKeysByIndex(gs);
    assert gs[0] in gs && gs[1] in gs;
  }

  lemma TwoIndexGroups(gs: seq<Group>, units: seq<UnitRequest>, low: string, high: string)
    requires IsArrayIndex(low) && IsArrayIndex(high) && IndexValue(low) < IndexValue(high)
    requires DistinctKeys(gs)
    requires forall g :: g in gs ==> g.key == low || g.key == high
    requires (exists g :: g in gs && g.key == low) && (exists g :: g in gs && g.key == high)
    requires forall g :: g in gs ==> g.value == WithSemester(units, g.key)
    requires forall i, j :: 0 <= i < j < |gs| && IsArrayIndex(gs[j].key) ==>
               IsArrayIndex(gs[i].key) && IndexValue(gs[i].key) < IndexValue(gs[j].key)
    ensures gs == [Property(low, WithSemester(units, low)), Property(high, WithSemester(units, high))]
  {
    TwoKeys(gs, low, high);
    assert gs[0].key == low;
    assert gs[0] in gs && gs[1] in gs;
  }

  lemma GroupsCover(units: seq<UnitRequest>, semester: string)
    requires exists u :: u in units && u.semester == semester
    ensures exists g :: g in Groups(units) && g.key == semester
  {
    var u :| u in units && u.semester == semester;
    GroupsShape(units);
  }

  lemma GroupsKeysWithin(units: seq<UnitRequest>, low: string, high: string)
    requires forall u :: u in units ==> u.semester == low || u.semester == high
    ensures forall g :: g in Groups(units) ==> g.key == low || g.key == high
  {
    GroupsShape(units);
  }

  /** A request for two semesters whose names are array indices is visited in numeric
      order of the names, whatever order the request lists them in. */
  lemma TwoIndexSemesterGroups(units: seq<UnitRequest>, low: string, high: string)
    requires IsArrayIndex(low) && IsArrayIndex(high) && IndexValue(low) < IndexValue(high)
    requires forall u :: u in units ==> u.semester == low || u.semester == high
    requires (exists u :: u in units && u.semester == low) && (exists u :: u in units && u.semester == high)
    ensures Groups(units) == [Property(low, WithSemester(units, low)), Property(high, WithSemester(units, high))]
  {
    GroupsCover(units, low);
    GroupsCover(units, high);
    GroupsKeysWithin(units, low, high);
    GroupsShape(units);
    TwoIndexGroups(Groups(units), units, low, high);
  }

  /** What a group needs, against the store it meets, to be inserted in full. */
  ghost predicate GroupAdmissible(regs: seq<RegisteredUnit>, sid: string, g: Group) {
    && SemesterCount(regs, sid, g.key) + |g.value| <= MaxUnitsPerSemester
    && NoRepeatedRequests(g.value)
    && forall u :: u in g.value ==> !IsRegistered(regs, sid, u.unitCode, u.semester)
  }

  /** Groups keyed by distinct semesters, each holding only units of its own semester. */
  ghost predicate WellKeyed(gs: seq<Group>) {
    DistinctKeys(gs) && forall g, u :: g in gs && u in g.value ==> u.semester == g.key
  }

  lemma GroupsAreWellKeyed(units: seq<UnitRequest>)
    ensures WellKeyed(Groups(units))
  {
  }

  /** Inserting one group changes nothing that a group of another semester is checked against. */
  lemma OtherGroupUnaffected(regs: seq<RegisteredUnit>, sid: string, g: Group, h: Group)
    requires forall u :: u in g.value ==> u.semester == g.key
    requires forall u :: u in h.value ==> u.semester == h.key
    requires g.key != h.key
    ensures GroupAdmissible(regs + RowsOf(sid, g.value), sid, h) <==> GroupAdmissible(regs, sid, h)
  {
    SemesterCountRowsOf(regs, sid, g.value, g.key, sid, h.key);
    forall u | u in h.value
      ensures IsRegistered(regs + RowsOf(sid, g.value), sid, u.unitCode, u.semester)
              <==> IsRegistered(regs, sid, u.unitCode, u.semester)
    {
      IsRegisteredRowsOf(regs, sid, g.value, sid, u.unitCode, u.semester);
    }
  }

  /** Every group passes both checks against `regs`. */
  ghost predicate AllAdmissible(regs: seq<RegisteredUnit>, sid: string, gs: seq<Group>) {
    forall g :: g in gs ==> GroupAdmissible(regs, sid, g)
  }

  lemma AllAdmissibleCons(regs: seq<RegisteredUnit>, sid: string, gs: seq<Group>)
    requires |gs| > 0
    ensures AllAdmissible(regs, sid, gs) <==> GroupAdmissible(regs, sid, gs[0]) && AllAdmissible(regs, sid, gs[1..])
  {
    assert forall x :: x in gs <==> x == gs[0] || x in gs[1..];
  }

  /** A run of well-keyed groups completes exactly when every group is admissible against
      the store as it was before the request. */
  lemma {:induction false} RunGroupsAdmissible(regs: seq<RegisteredUnit>, sid: string, gs: seq<Group>)
    requires WellKeyed(gs)
    ensures RunGroups(regs, sid, gs).1.None? <==> AllAdmissible(regs, sid, gs)
    decreases |gs|
  {
    if |gs| > 0 {
      var g := gs[0];
      AllAdmissibleCons(regs, sid, gs);
      if SemesterCount(regs, sid, g.key) + |g.value| <= MaxUnitsPerSemester {
        InsertGroupSucceeds(regs, sid, g.key, g.value);
        var inserted := InsertGroup(regs, sid, g.key, g.value);
        if inserted.1.None? {
          assert inserted.0 == regs + RowsOf(sid, g.value) by {
            assert g.value[..|g.value|] == g.value;
          }
          LaterGroupsUnaffected(regs, sid, gs);
          RunGroupsAdmissible(inserted.0, sid, gs[1..]);
        }
      }
    }
  }

  /** Once the first group is inserted in full, the remaining groups are admissible exactly
      when they were before it. */
  lemma LaterGroupsUnaffected(regs: seq<RegisteredUnit>, sid: string, gs: seq<Group>)
    requires |gs| > 0 && WellKeyed(gs)
    ensures WellKeyed(gs[1..])
    ensures AllAdmissible(regs + RowsOf(sid, gs[0].value), sid, gs[1..]) <==> AllAdmissible(regs, sid, gs[1..])
  {
    assert forall x :: x in gs[1..] ==> x in gs;
    forall h | h in gs[1..]
      ensures GroupAdmissible(regs + RowsOf(sid, gs[0].value), sid, h) <==> GroupAdmissible(regs, sid, h)
    {
      OtherGroupUnaffected(regs, sid, gs[0], h);
    }
  }

  lemma {:induction false} NoRepeatedWithSemester(units: seq<UnitRequest>, semester: string)
    requires NoRepeatedRequests(units)
    ensures NoRepeatedRequests(WithSemester(units, semester))
    decreases |units|
  {
    if |units| > 0 {
      NoRepeatedWithSemester(units[1..], semester);
      if units[0].semester == semester {
        var r := WithSemester(units, semester);
        assert r[1..] == WithSemester(units[1..], semester);
      }
    }
  }

  lemma {:induction false} NoRepeatedFromSemesters(units: seq<UnitRequest>)
    requires forall k :: NoRepeatedRequests(WithSemester(units, k))
    ensures NoRepeatedRequests(units)
    decreases |units|
  {
    if |units| > 0 {
      var u := units[0];
      forall k ensures NoRepeatedRequests(WithSemester(units[1..], k)) {
        if k == u.semester {
          assert WithSemester(units, k)[1..] == WithSemester(units[1..], k);
        }
      }
      NoRepeatedFromSemesters(units[1..]);
      forall v | v in units[1..] ensures !SameSlot(v, u) {
        if v.semester == u.semester {
          var r := WithSemester(units, u.semester);
          assert r[0] == u && r[1..] == WithSemester(units[1..], u.semester);
          assert v in r[1..];
        }
      }
    }
  }

  /** What a whole request needs to succeed, stated on the request itself. */
  ghost predicate BatchAdmissible(regs: seq<RegisteredUnit>, sid: string, units: seq<UnitRequest>) {
    && (forall u :: u in units ==>
          SemesterCount(regs, sid, u.semester) + |WithSemester(units, u.semester)| <= MaxUnitsPerSemester)
    && NoRepeatedRequests(units)
    && (forall u :: u in units ==> !IsRegistered(regs, sid, u.unitCode, u.semester))
  }

  /** A registration request succeeds exactly when, for every requested semester, the
      existing count plus the number of units requested for it is at most 4, no unit is
      already registered for its semester, and no unit and semester is requested twice. */
  lemma RegisterUnitsSucceeds(st: Store, req: RegistrationRequest)
    ensures RegisterUnits(st, req).1.Ok? <==> BatchAdmissible(st.registered, req.studentId, req.units)
  {
    var units, sid, regs := req.units, req.studentId, st.registered;
    RegisterUnitsRunsGroups(st, req);
    GroupsAreWellKeyed(units);
    RunGroupsAdmissible(regs, sid, Groups(units));
    if BatchAdmissible(regs, sid, units) {
      BatchAdmitsGroups(regs, sid, units);
    }
    if AllAdmissible(regs, sid, Groups(units)) {
      GroupsAdmitBatch(regs, sid, units);
    }
  }

  lemma BatchAdmitsGroups(regs: seq<RegisteredUnit>, sid: string, units: seq<UnitRequest>)
    requires BatchAdmissible(regs, sid, units)
    ensures AllAdmissible(regs, sid, Groups(units))
  {
    var gs := Groups(units);
    forall g | g in gs ensures GroupAdmissible(regs, sid, g) {
      assert g.value[0] in WithSemester(units, g.key);
      NoRepeatedWithSemester(units, g.key);
    }
  }

  lemma GroupsAdmitBatch(regs: seq<RegisteredUnit>, sid: string, units: seq<UnitRequest>)
    requires AllAdmissible(regs, sid, Groups(units))
    ensures BatchAdmissible(regs, sid, units)
  {
    var gs := Groups(units);
    forall u | u in units
      ensures SemesterCount(regs, sid, u.semester) + |WithSemester(units, u.semester)| <= MaxUnitsPerSemester
      ensures !IsRegistered(regs, sid, u.unitCode, u.semester)
    {
      var g :| g in gs && g.key == u.semester;
      assert u in g.value;
    }
    forall k ensures NoRepeatedRequests(WithSemester(units, k)) {
      if exists u :: u in units && u.semester == k {
        var u :| u in units && u.semester == k;
        var g :| g in gs && g.key == u.semester;
      } else {
        WithSemesterNone(units, k);
      }
    }
    NoRepeatedFromSemesters(units);
  }

  /** The visiting order of a request is a reordering of its units. */
  lemma VisitingOrderIsPermutation(units: seq<UnitRequest>)
    ensures multiset(Flatten(Groups(units))) == multiset(units)
  {
    assert IsGrouping(Groups(units), units);
  }

  /** A run that is not refused inserts the rows of every unit, in visiting order. */
  lemma RunGroupsComplete(regs: seq<RegisteredUnit>, sid: string, gs: seq<Group>)
    ensures RunGroups(regs, sid, gs).1.None? ==> RunGroups(regs, sid, gs).0 == regs + RowsOf(sid, Flatten(gs))
  {
    var order := Flatten(gs);
    assert order[..|order|] == order;
  }

  /** `registerUnits` stores exactly what the run of its groups leaves behind, and succeeds
      exactly when that run is not refused. */
  lemma RegisterUnitsRunsGroups(st: Store, req: RegistrationRequest)
    ensures var run := RunGroups(st.registered, req.studentId, Groups(req.units));
            && RegisterUnits(st, req).0 == st.(registered := run.0)
            && (RegisterUnits(st, req).1.Ok? <==> run.1.None?)
            && (run.1.Some? ==> RegisterUnits(st, req).1 == Err(400, Message(run.1.value)))
  {
  }

  /** The rows a request leaves behind are the rows of a prefix of its units in visiting
      order; on success, the rows of all of them. */
  lemma RegisterUnitsRows(st: Store, req: RegistrationRequest)
    ensures var order := Flatten(Groups(req.units));
            var regs := RegisterUnits(st, req).0.registered;
            && AddsPrefix(st.registered, req.studentId, order, regs)
            && (RegisterUnits(st, req).1.Ok? ==> regs == st.registered + RowsOf(req.studentId, order))
  {
    var run := RunGroups(st.registered, req.studentId, Groups(req.units));
    RegisterUnitsRunsGroups(st, req);
    RunGroupsComplete(st.registered, req.studentId, Groups(req.units));
    assert RegisterUnits(st, req).0.registered == run.0;
  }

  /** One step of a run: a group's inserts raise only its own semester's count, and only
      after the count plus the group's size was found to be at most 4. */
  lemma InsertGroupCapacity(regs: seq<RegisteredUnit>, sid: string, g: Group, out: seq<RegisteredUnit>, s: string, k: string)
    requires forall u :: u in g.value ==> u.semester == g.key
    requires SemesterCount(regs, sid, g.key) + |g.value| <= MaxUnitsPerSemester
    requires AddsPrefix(regs, sid, g.value, out)
    ensures var n := SemesterCount(out, s, k);
            n <= MaxUnitsPerSemester || n == SemesterCount(regs, s, k)
  {
    var m := |out| - |regs|;
    assert forall u :: u in g.value[..m] ==> u in g.value;
    SemesterCountRowsOf(regs, sid, g.value[..m], g.key, s, k);
  }

  lemma {:induction false} RunGroupsCapacity(regs: seq<RegisteredUnit>, sid: string, gs: seq<Group>, s: string, k: string)
    requires forall g, u :: g in gs && u in g.value ==> u.semester == g.key
    ensures var n := SemesterCount(RunGroups(regs, sid, gs).0, s, k);
            n <= MaxUnitsPerSemester || n == SemesterCount(regs, s, k)
    decreases |gs|
  {
    if |gs| > 0 {
      var g := gs[0];
      if SemesterCount(regs, sid, g.key) + |g.value| <= MaxUnitsPerSemester {
        var inserted := InsertGroup(regs, sid, g.key, g.value);
        InsertGroupCapacity(regs, sid, g, inserted.0, s, k);
        if inserted.1.None? {
          assert forall x :: x in gs[1..] ==> x in gs;
          RunGroupsCapacity(inserted.0, sid, gs[1..], s, k);
        }
      }
    }
  }

  /** With one request at a time, no student ever holds more than 4 units in a semester. */
  lemma RegisterUnitsKeepsCapacity(st: Store, req: RegistrationRequest)
    requires WithinCapacity(st.registered, MaxUnitsPerSemester)
    ensures WithinCapacity(RegisterUnits(st, req).0.registered, MaxUnitsPerSemester)
  {
    var gs := Groups(req.units);
    GroupsAreWellKeyed(req.units);
    assert RegisterUnits(st, req).0.registered == RunGroups(st.registered, req.studentId, gs).0;
    forall s, k ensures SemesterCount(RegisterUnits(st, req).0.registered, s, k) <= MaxUnitsPerSemester {
      RunGroupsCapacity(st.registered, req.studentId, gs, s, k);
    }
  }

  lemma {:induction false} InsertGroupNoDuplicates(regs: seq<RegisteredUnit>, sid: string, semester: string, us: seq<UnitRequest>)
    requires NoDuplicateRegistrations(regs)
    ensures NoDuplicateRegistrations(InsertGroup(regs, sid, semester, us).0)
    decreases |us|
  {
    if |us| > 0 && !IsRegistered(regs, sid, us[0].unitCode, us[0].semester) {
      var next := regs + [RowOf(sid, us[0])];
      forall i, j | 0 <= i < j < |next|
        ensures !(next[i].student == next[j].student && next[i].unitCode == next[j].unitCode
                  && next[i].semester == next[j].semester)
      {
        if j == |regs| {
          assert next[i] in regs;
        }
      }
      InsertGroupNoDuplicates(next, sid, semester, us[1..]);
    }
  }

  lemma {:induction false} RunGroupsNoDuplicates(regs: seq<RegisteredUnit>, sid: string, gs: seq<Group>)
    requires NoDuplicateRegistrations(regs)
    ensures NoDuplicateRegistrations(RunGroups(regs, sid, gs).0)
    decreases |gs|
  {
    if |gs| > 0 {
      var g := gs[0];
      if SemesterCount(regs, sid, g.key) + |g.value| <= MaxUnitsPerSemester {
        InsertGroupNoDuplicates(regs, sid, g.key, g.value);
        var inserted := InsertGroup(regs, sid, g.key, g.value);
        if inserted.1.None? {
          RunGroupsNoDuplicates(inserted.0, sid, gs[1..]);
        }
      }
    }
  }

  /** No request, successful or not, creates a second row for a student, unit and semester. */
  lemma RegisterUnitsKeepsNoDuplicates(st: Store, req: RegistrationRequest)
    requires NoDuplicateRegistrations(st.registered)
    ensures NoDuplicateRegistrations(RegisterUnits(st, req).0.registered)
  {
    RunGroupsNoDuplicates(st.registered, req.studentId, Groups(req.units));
  }
}

=== FILE: registration_examples.dfy ===
/** Worked requests against small stores, showing the order in which the handler
    visits semesters and where it stops. */
module RegistrationExamples {
  import opened Decimal
  import opened JsObject
  import opened Store
  import opened Registration
  import opened RegistrationProperties

  function StoreWith(regs: seq<RegisteredUnit>): Store {
    Store([], [], [], [], regs, [], [], 0)
  }

  function Row(code: string, semester: string): RegisteredUnit {
    RegisteredUnit("S1", code, semester, 1)
  }

  function Request(code: string, semester: string): UnitRequest {
    UnitRequest(code, semester, 1)
  }

  function ThreeInSpring(): seq<RegisteredUnit> {
    [Row("CS111", "Spring"), Row("CS112", "Spring"), Row("CS113", "Spring")]
  }

  lemma ThreeInSpringCount()
    ensures SemesterCount(ThreeInSpring(), "S1", "Spring") == 3
  {
    var regs := ThreeInSpring();
    assert regs[1..][1..][1..] == [];
  }

  function TwoForSpring(): seq<UnitRequest> {
    [Request("CS114", "Spring"), Request("CS115", "Spring")]
  }

  lemma TwoForSpringRun()
    ensures RunGroups(ThreeInSpring(), "S1", [Property("Spring", TwoForSpring())])
            == (ThreeInSpring(), Some(CapacityExceeded("Spring", 3)))
  {
    ThreeInSpringCount();
  }

  /** Three Spring rows plus two more requested: refused before any insert, with the
      pre-request count in the message. */
  lemma CapacityExample()
    ensures var st := StoreWith(ThreeInSpring());
            RegisterUnits(st, RegistrationRequest("S1", TwoForSpring()))
            == (st, Err(400, Message(CapacityExceeded("Spring", 3))))
  {
    SingleSemesterGroups(TwoForSpring(), "Spring");
    TwoForSpringRun();
    RegisterUnitsRunsGroups(StoreWith(ThreeInSpring()), RegistrationRequest("S1", TwoForSpring()));
  }

  function Twice(): seq<UnitRequest> {
    [Request("CS111", "Spring"), Request("CS111", "Spring")]
  }

  lemma TwiceInsert()
    ensures InsertGroup([], "S1", "Spring", Twice())
            == ([Row("CS111", "Spring")], Some(AlreadyRegistered("CS111", "Spring")))
  {
    var u := Request("CS111", "Spring");
    assert Twice()[1..] == [u];
    assert [] + [RowOf("S1", u)] == [Row("CS111", "Spring")];
    assert IsRegistered([Row("CS111", "Spring")], "S1", "CS111", "Spring") by {
      assert Row("CS111", "Spring") in [Row("CS111", "Spring")];
    }
  }

  lemma TwiceRun()
    ensures RunGroups([], "S1", [Property("Spring", Twice())])
            == ([Row("CS111", "Spring")], Some(AlreadyRegistered("CS111", "Spring")))
  {
    TwiceInsert();
  }

  /** The same unit twice in one request: the first copy is inserted and the second is
      then refused as a duplicate, so the failed request leaves one row behind. */
  lemma DuplicateInBatchExample()
    ensures var out := RegisterUnits(StoreWith([]), RegistrationRequest("S1", Twice()));
            && out.0.registered == [Row("CS111", "Spring")]
            && out.1 == Err(400, Message(AlreadyRegistered("CS111", "Spring")))
  {
    SingleSemesterGroups(Twice(), "Spring");
    TwiceRun();
    RegisterUnitsRunsGroups(StoreWith([]), RegistrationRequest("S1", Twice()));
  }

  function FullInTwo(): seq<RegisteredUnit> {
    [Row("A", "2"), Row("B", "2"), Row("C", "2"), Row("D", "2")]
  }

  /** A request listing semester "2" before semester "1". */
  function TwoThenOne(): seq<UnitRequest> {
    [Request("CS111", "2"), Request("CS112", "1")]
  }

  /** The visiting order of `TwoThenOne`: semester "1" first. */
  function OneThenTwo(): seq<Group> {
    [Property("1", [Request("CS112", "1")]), Property("2", [Request("CS111", "2")])]
  }

  lemma SmallIndices()
    ensures IsArrayIndex("1") && IsArrayIndex("2") && IndexValue("1") < IndexValue("2")
  {
    assert ParseDecimal("1") == 1 && ParseDecimal("2") == 2;
  }

  lemma TwoThenOneSemesters()
    ensures WithSemester(TwoThenOne(), "1") == [Request("CS112", "1")]
    ensures WithSemester(TwoThenOne(), "2") == [Request("CS111", "2")]
  {
    var units := TwoThenOne();
    assert units[1..][1..] == [];
  }

  lemma TwoThenOneGroups()
    ensures Groups(TwoThenOne()) == OneThenTwo()
  {
    var units := TwoThenOne();
    SmallIndices();
    TwoThenOneSemesters();
    assert units[0] in units && units[1] in units;
    TwoIndexSemesterGroups(units, "1", "2");
  }

  lemma FullInTwoCountOne()
    ensures SemesterCount(FullInTwo(), "S1", "1") == 0
  {
    var regs := FullInTwo();
    assert regs[1..][1..][1..][1..] == [];
  }

  lemma FullInTwoCountTwo()
    ensures SemesterCount(FullInTwo() + [Row("CS112", "1")], "S1", "2") == 4
  {
    var regs := FullInTwo();
    assert regs[1..][1..][1..][1..] == [];
    SemesterCountConcat(regs, [Row("CS112", "1")], "S1", "2");
  }

  lemma TwoThenOneFirstGroup()
    ensures InsertGroup(FullInTwo(), "S1", "1", [Request("CS112", "1")])
            == (FullInTwo() + [Row("CS112", "1")], None)
  {
    var regs := FullInTwo();
    assert !IsRegistered(regs, "S1", "CS112", "1") by {
      forall r | r in regs ensures r.unitCode != "CS112" {
      }
    }
  }

  lemma TwoThenOneRun()
    ensures RunGroups(FullInTwo(), "S1", OneThenTwo())
            == (FullInTwo() + [Row("CS112", "1")], Some(CapacityExceeded("2", 4)))
  {
    var gs := OneThenTwo();
    FullInTwoCountOne();
    TwoThenOneFirstGroup();
    TwoThenOneSecondGroup();
    assert RunGroups(FullInTwo(), "S1", gs) == RunGroups(FullInTwo() + [Row("CS112", "1")], "S1", gs[1..]);
  }

  lemma TwoThenOneSecondGroup()
    ensures RunGroups(FullInTwo() + [Row("CS112", "1")], "S1", OneThenTwo()[1..])
            == (FullInTwo() + [Row("CS112", "1")], Some(CapacityExceeded("2", 4)))
  {
    FullInTwoCountTwo();
    assert OneThenTwo()[1..] == [Property("2", [Request("CS111", "2")])];
  }

  /** Semesters named "2" and "1": the object enumerates "1" first whatever the request
      order, so the unit for "1" is inserted before "2" is refused for capacity, and the
      refused request leaves that row behind. */
  lemma NumericSemesterExample()
    ensures var out := RegisterUnits(StoreWith(FullInTwo()), RegistrationRequest("S1", TwoThenOne()));
            && out.0.registered == FullInTwo() + [Row("CS112", "1")]
            && out.1 == Err(400, Message(CapacityExceeded("2", 4)))
  {
    TwoThenOneGroups();
    TwoThenOneRun();
    RegisterUnitsRunsGroups(StoreWith(FullInTwo()), RegistrationRequest("S1", TwoThenOne()));
  }
}

=== FILE: store.dfy ===
/** The relational store the handlers read and write, as an immutable value.

    Each table is a sequence of rows in insertion order. An INSERT appends,
    an UPDATE ... WHERE maps over the matching rows, a SELECT ... WHERE is a
    filter and a COUNT(*) is the length of one. Columns that may hold SQL
    NULL are `Option`s. */
module Store {

  datatype Option<T> = None | Some(value: T)

  /** What a handler sends back: a JSON value, or an HTTP error status with its message. */
  datatype Reply<T> = Ok(value: T) | Err(status: nat, message: string)

  datatype Student = Student(
    studentId: string,
    passwordHash: string,
    firstName: string,
    lastName: string,
    email: string,
    address: string,
    phone: string,
    programId: string,
    programTitle: Option<string>,
    programYear: Option<int>)

  datatype Program = Program(title: string, description: string, programYear: int)

  datatype Unit = Unit(
    id: nat,
    unitCode: string,
    title: string,
    description: string,
    programTitle: Option<string>,
    yearOffered: Option<int>,
    semesterOffered: Option<int>,
    unitFee: int,
    programId: string)

  /** A row of the prerequisites table: the code of the unit it belongs to, and its
      nullable unit_id column. */
  datatype Prerequisite = Prerequisite(unitCode: string, unitId: Option<nat>)

  /** A row of registered_units. */
  datatype RegisteredUnit = RegisteredUnit(student: string, unitCode: string, semester: string, programYear: int)

  datatype Grade = Grade(student: string, unitId: nat, semester: string, year: int, grade: Option<string>)

  datatype Invoice = Invoice(student: string, totalFees: int, amountPaid: int, holds: string)

  datatype Store = Store(
    students: seq<Student>,
    programs: seq<Program>,
    units: seq<Unit>,
    prerequisites: seq<Prerequisite>,
    registered: seq<RegisteredUnit>,
    grades: seq<Grade>,
    invoices: seq<Invoice>,
    nextUnitId: nat)

  /** The id counter of the units table is ahead of every id it has handed out. */
  predicate IdsBelowCounter(st: Store) {
    forall u :: u in st.units ==> u.id < st.nextUnitId
  }

  /** `SELECT COUNT(*) FROM registered_units WHERE student_id = sid AND semester = semester`. */
  function SemesterCount(regs: seq<RegisteredUnit>, sid: string, semester: string): (n: nat)
    ensures n <= |regs|
    ensures n > 0 <==> exists r :: r in regs && r.student == sid && r.semester == semester
    decreases |regs|
  {
    if |regs| == 0 then 0
    else
      assert forall r :: r in regs ==> r == regs[0] || r in regs[1..];
      (if regs[0].student == sid && regs[0].semester == semester then 1 else 0)
      + SemesterCount(regs[1..], sid, semester)
  }

  lemma {:induction false} SemesterCountConcat(a: seq<RegisteredUnit>, b: seq<RegisteredUnit>, sid: string, semester: string)
    ensures SemesterCount(a + b, sid, semester) == SemesterCount(a, sid, semester) + SemesterCount(b, sid, semester)
    decreases |a|
  {
    if |a| == 0 {
      assert a + b == b;
    } else {
      assert (a + b)[1..] == a[1..] + b;
      SemesterCountConcat(a[1..], b, sid, semester);
    }
  }

  /** Whether `SELECT * FROM registered_units WHERE student_id, unit_code, semester` returns a row. */
  predicate IsRegistered(regs: seq<RegisteredUnit>, sid: string, unitCode: string, semester: string) {
    exists r :: r in regs && r.student == sid && r.unitCode == unitCode && r.semester == semester
  }

  /** An invariant of registered_units that `registerUnits` maintains by its duplicate
      check: no student holds the same unit twice in one semester. */
  predicate NoDuplicateRegistrations(regs: seq<RegisteredUnit>) {
    forall i, j :: 0 <= i < j < |regs| ==>
      !(regs[i].student == regs[j].student && regs[i].unitCode == regs[j].unitCode && regs[i].semester == regs[j].semester)
  }

  /** An invariant of registered_units that `registerUnits` maintains by its capacity
      check ("up to 4 units per semester"): at most `limit` rows per student and semester. */
  ghost predicate WithinCapacity(regs: seq<RegisteredUnit>, limit: nat) {
    forall sid, semester :: SemesterCount(regs, sid, semester) <= limit
  }
}

=== FILE: upsert.dfy ===
/** The update-or-insert pattern of the admin handlers: look for rows with the key of
    `row`; if there are any, `UPDATE ... WHERE key` rewrites every one of them to `row`,
    otherwise `INSERT` appends `row`. */
module KeyedUpsert {

  /** Some row carries key `k`. */
  predicate HasKey<T, K(==)>(rows: seq<T>, key: T -> K, k: K) {
    exists i :: 0 <= i < |rows| && key(rows[i]) == k
  }

  /** `UPDATE ... WHERE key = k`: every row with key `k` becomes `row`. */
  function Overwrite<T, K(==)>(rows: seq<T>, key: T -> K, row: T): (r: seq<T>)
    ensures |r| == |rows|
    ensures forall i :: 0 <= i < |rows| ==> r[i] == (if key(rows[i]) == key(row) then row else rows[i])
  {
    seq(|rows|, i requires 0 <= i < |rows| => if key(rows[i]) == key(row) then row else rows[i])
  }

  /** Look for rows with the key of `row`; rewrite them all when there are any, append
      `row` when there are none. */
  function Upsert<T, K(==)>(rows: seq<T>, key: T -> K, row: T): (r: seq<T>)
    ensures HasKey(rows, key, key(row)) ==>
              && |r| == |rows|
              && forall i :: 0 <= i < |rows| ==> r[i] == (if key(rows[i]) == key(row) then row else rows[i])
    ensures !HasKey(rows, key, key(row)) ==> |r| == |rows| + 1 && r[..|rows|] == rows && r[|rows|] == row
    ensures HasKey(r, key, key(row))
  {
    if HasKey(rows, key, key(row)) then Overwrite(rows, key, row) else rows + [row]
  }

  /** The rows whose key is not `k`, in order. */
  function Others<T(!new), K(==)>(rows: seq<T>, key: T -> K, k: K): (r: seq<T>)
    ensures forall x :: x in r <==> x in rows && key(x) != k
    decreases |rows|
  {
    if |rows| == 0 then []
    else
      assert forall x :: x in rows <==> x == rows[0] || x in rows[1..];
      (if key(rows[0]) != k then [rows[0]] else []) + Others(rows[1..], key, k)
  }

  lemma {:induction false} OthersConcat<T(!new), K>(a: seq<T>, b: seq<T>, key: T -> K, k: K)
    ensures Others(a + b, key, k) == Others(a, key, k) + Others(b, key, k)
    decreases |a|
  {
    if |a| == 0 {
      assert a + b == b;
    } else {
      assert (a + b)[1..] == a[1..] + b;
      OthersConcat(a[1..], b, key, k);
    }
  }

  lemma {:induction false} OthersOverwrite<T(!new), K>(rows: seq<T>, key: T -> K, row: T)
    ensures Others(Overwrite(rows, key, row), key, key(row)) == Others(rows, key, key(row))
    decreases |rows|
  {
    if |rows| > 0 {
      var r := Overwrite(rows, key, row);
      assert r[1..] == Overwrite(rows[1..], key, row);
      OthersOverwrite(rows[1..], key, row);
    }
  }

  /** After an upsert, `row` is present and every row with its key is `row`. */
  lemma UpsertStores<T, K>(rows: seq<T>, key: T -> K, row: T)
    ensures var r := Upsert(rows, key, row);
            row in r && forall i :: 0 <= i < |r| && key(r[i]) == key(row) ==> r[i] == row
  {
    var r := Upsert(rows, key, row);
    if HasKey(rows, key, key(row)) {
      var i :| 0 <= i < |rows| && key(rows[i]) == key(row);
      assert r[i] == row;
    } else {
      assert r[|rows|] == row;
    }
  }

  /** An upsert leaves the rows of every other key as they were, in order. */
  lemma UpsertKeepsOthers<T(!new), K>(rows: seq<T>, key: T -> K, row: T)
    ensures Others(Upsert(rows, key, row), key, key(row)) == Others(rows, key, key(row))
  {
    if HasKey(rows, key, key(row)) {
      OthersOverwrite(rows, key, row);
    } else {
      OthersConcat(rows, [row], key, key(row));
    }
  }

  /** Applying the same upsert twice is applying it once. */
  lemma UpsertIdempotent<T, K>(rows: seq<T>, key: T -> K, row: T)
    ensures Upsert(Upsert(rows, key, row), key, row) == Upsert(rows, key, row)
  {
    var once := Upsert(rows, key, row);
    UpsertStores(rows, key, row);
    var i :| 0 <= i < |once| && once[i] == row;
    assert HasKey(once, key, key(row));
  }

  /** No two rows share a key. */
  predicate UniqueKeys<T, K(==)>(rows: seq<T>, key: T -> K) {
    forall i, j :: 0 <= i < j < |rows| ==> key(rows[i]) != key(rows[j])
  }

  /** An upsert keeps the keys of a table unique. */
  lemma UpsertKeepsUnique<T, K>(rows: seq<T>, key: T -> K, row: T)
    requires UniqueKeys(rows, key)
    ensures UniqueKeys(Upsert(rows, key, row), key)
  {
    var r := Upsert(rows, key, row);
    if !HasKey(rows, key, key(row)) {
      forall i, j | 0 <= i < j < |r| ensures key(r[i]) != key(r[j]) {
        if j == |rows| {
          assert key(rows[i]) != key(row);
        }
      }
    }
  }
}
